=== FILE: README.md ===
# web2md content script: link picker and page capture, in Dafny

This project models the decision logic of the web2md content script
(`src/contentScript/contentScript.js`) and proves properties of it:

- **The link picker.** This is an overlay mode in which the user clicks page
  elements to collect their links, then presses Done or Cancel. The session
  record (`window.linkPickerState`) is an immutable `Session`. Each handler is
  a pure transition that returns the new session and a list of effects:
  storage writes and removals, the `LINK_PICKER_COMPLETE` message, alerts,
  the count label and the cleanup timer. (`link_picker.dfy`)
- **Link extraction.** `extractLinksFromElement` keeps the distinct absolute
  http(s) links an element holds, in order. (`link_extraction.dfy`)
- **The count label.** It reads "N link" or "N links". (`link_count.dfy`)
- **JavaScript `Set`s.** A `Set` iterates in insertion order. The picker's
  `selectedLinks` and the set built in `extractLinksFromElement` are
  therefore modelled as duplicate-free sequences. (`insertion_set.dfy`)
  `selectedElements` is a Dafny `set`: its order matters only when cleanup
  removes the highlight class from each selected element, which is UI.
- **Page capture.** This covers the title and `<base>` fix-up of
  `getHTMLOfDocument` and the serialisation of the selection
  (`getHTMLOfSelection`). (`page_capture.dfy`)
- **Hidden-node removal.** `removeHiddenNodes` walks the tree with a
  NodeIterator, which amounts to a recursive pruning under the rules of
  section 6.1 of the WHATWG DOM Standard. (`hidden_nodes.dfy`)

The world outside the script appears only as parameters:

- `Page.resolve` stands for `new URL(href, base)`. It returns the parsed URL,
  or `None` when the constructor throws.
- `now` stands for `Date.now()`.
- Layout and style facts are fields of a node.
- Events are values of the `Event` datatype. The cleanup timer is a
  `ScheduleCleanup` effect together with a `CleanupTimer` event.

The state machine is stated for any function `linksOf` from elements to link
lists. On a page it runs with `PageLinks(page)`, which is
`extractLinksFromElement`.

The model keeps the following behaviour exactly as the code has it, although
it is easy to misread:

- **Deselecting.** Every link the element yields is removed, including links
  that another still-selected element also contributes. The session
  invariant therefore holds in one direction only: every selected link comes
  from some selected element. The other direction fails
  (`LinkPicker.DeselectDropsSharedLink`). Selecting then deselecting an
  element restores the count only when its links were new
  (`LinkPicker.SelectThenDeselectRestores`, `LinkPicker.SelectThenDeselectLosesShared`).
- **Rejected elements.** Script, style, noscript and math elements are never
  removed by their own iteration step. The filter's `FILTER_REJECT` only
  keeps the iterator from returning them (`HiddenNodes.RejectedChildKept`).
  They leave the output only inside a removed ancestor: a script inside a
  hidden div goes with the div. A NodeIterator still descends into them.
  Hidden elements inside script, style and noscript are therefore removed
  all the same. Hidden elements inside `math` whose parent is a MathML
  element are kept, because MathML elements are not HTML elements
  (`HiddenNodes.MathExample`).
- **Hidden elements.** A hidden element is not removed by its own iteration
  step when its parent is not an HTML element
  (`HiddenNodes.ForeignParentKeepsChildren`). It still leaves the output
  inside a removed ancestor, for instance within an `<svg>` directly under
  `<body>`.
- **Foreign elements.** An SVG or other non-HTML element under an HTML parent
  is removed, because it has no `offsetParent` property
  (`HiddenNodes.BodyExample`). `math` is the exception: the name test comes
  first and rejects it (`HiddenNodes.MathExample`).
- **The selection.** The code does not use only the first range: it emits
  the first range once per range (see Findings).

## Model

| member | source | states |
|---|---|---|
| InsertionSet.Add | src/contentScript/contentScript.js:568 | `Set.add` results in the old values plus the new one, keeps every old value in its place, and adds nothing when the value is present |
| InsertionSet.Delete | src/contentScript/contentScript.js:582 | `Set.delete` results in exactly the old values minus the deleted one, with no duplicate introduced |
| InsertionSet.DeleteKeepsOrder | src/contentScript/contentScript.js:582 | deleting a value from a duplicate-free set removes exactly its position and keeps the values before and after it in order |
| InsertionSet.AddAll | src/contentScript/contentScript.js:568 | adding a list of links one by one gives the union of the sets, with earlier values first and unmoved |
| InsertionSet.DeleteAll | src/contentScript/contentScript.js:582 | deleting a list of links one by one gives the set difference |
| InsertionSet.SizeIsCardinality | src/contentScript/contentScript.js:622 | the `size` of the set, which is the length of the duplicate-free sequence, is the number of distinct links |
| InsertionSet.AddThenDeleteFresh | src/contentScript/contentScript.js:568-582 | adding links that are all new and then deleting the same links gives back the original set, order included |
| LinkExtraction.Candidates | src/contentScript/contentScript.js:592-602 | the hrefs examined are the `a[href]` descendants first; when the element is an `A` with a non-empty `href`, its own `href` attribute follows at the end |
| LinkExtraction.AcceptedUrl | src/contentScript/contentScript.js:602-611 | an href yields a link exactly when it is non-empty, parses against the page address, and has protocol `http:` or `https:`; the link is the parsed URL's `href` |
| LinkExtraction.Collect | src/contentScript/contentScript.js:599-616 | the `forEach` loop yields a duplicate-free set holding the accumulated links plus exactly the accepted links, without moving earlier ones |
| LinkExtraction.ExtractLinks | src/contentScript/contentScript.js:591-619 | the extracted list has no duplicates, and its values are exactly the accepted links of the candidate hrefs |
| LinkExtraction.ExtractedLinksAreWebUrls | src/contentScript/contentScript.js:603-611 | every extracted link comes from a non-empty candidate href that resolved to an http(s) URL with that `href` |
| LinkExtraction.UsableCandidatesAreExtracted | src/contentScript/contentScript.js:599-614 | every usable candidate's absolute URL is among the extracted links |
| LinkExtraction.NoUsableCandidateNoLinks | src/contentScript/contentScript.js:602-617 | empty, unparsable and non-web hrefs are skipped silently, so an element with only such hrefs yields an empty list |
| LinkExtraction.MixedSchemesExample | src/contentScript/contentScript.js:591-619 | on a page with a `mailto:`, a relative and an absolute https anchor, exactly the two web links are kept, in document order |
| LinkCount.Decimal | src/contentScript/contentScript.js:625 | a count is printed as a non-empty string of decimal digits with no leading zero |
| LinkCount.DecimalRoundTrip | src/contentScript/contentScript.js:625 | reading the printed digits back gives the count |
| LinkCount.Label | src/contentScript/contentScript.js:625 | the label begins with the printed count and is one character longer in the plural |
| LinkCount.LabelShowsCount | src/contentScript/contentScript.js:621-627 | the number read off the label is the set's size, and the label ends in "s" exactly when the size is not 1 |
| LinkCount.LabelInjective | src/contentScript/contentScript.js:625 | different counts never show the same label |
| LinkCount.LabelExamples | src/contentScript/contentScript.js:625 | the label reads "0 links", "1 link", "2 links" and "12 links" for those counts |
| LinkPicker.Activate | src/contentScript/contentScript.js:223-231 | activation while active changes nothing; otherwise it starts an active session with both sets empty |
| LinkPicker.Select | src/contentScript/contentScript.js:560-576 | an element without links changes nothing; otherwise its links join the link set, the element joins the element set, and the label shows the new size |
| LinkPicker.Deselect | src/contentScript/contentScript.js:578-589 | deselection removes every link of the element from the link set, shared or not, unmarks the element, and refreshes the label |
| LinkPicker.Click | src/contentScript/contentScript.js:478-495 | clicks inside the panel change nothing and have no effect; no click changes whether the picker is active, and the link set stays free of duplicates |
| LinkPicker.ClickToggles | src/contentScript/contentScript.js:478-495 | a click outside the panel leaves its target selected exactly when it was not selected before and yields at least one link; no other element changes state |
| LinkPicker.Finish | src/contentScript/contentScript.js:629-661 | Done stores results exactly when links are selected. The storage write comes first, and storage then holds exactly the selected links and the click's time. Every `LINK_PICKER_COMPLETE` message it sends carries the selected links, the 2000 ms cleanup is scheduled, and there is no alert and no removal. With no links Done only alerts. The session is unchanged until the timer fires |
| LinkPicker.Cleanup | src/contentScript/contentScript.js:750-758 | cleanup leaves an inactive session with both sets empty, whatever it started from |
| LinkPicker.Cancel | src/contentScript/contentScript.js:697-711 | cancel ends in the initial session; whatever storage held, both keys are cleared; an empty link list is reported, and every message it sends carries the empty list; nothing is stored, no alert is raised and no cleanup timer is armed |
| LinkPicker.Step | src/contentScript/contentScript.js:213-221 | every event, from the activation message to the timer, keeps the link set free of duplicates |
| LinkPicker.InitialValid | src/contentScript/contentScript.js:200-210 | the initial record satisfies the session invariant |
| LinkPicker.SelectPreservesValid | src/contentScript/contentScript.js:560-576 | selecting keeps the invariant: every selected element yields a link, and every selected link comes from a selected element |
| LinkPicker.DeselectPreservesValid | src/contentScript/contentScript.js:578-589 | deselecting keeps the same invariant |
| LinkPicker.StepPreservesValid | src/contentScript/contentScript.js:478-503 | every handler keeps the invariant |
| LinkPicker.RunPreservesValid | src/contentScript/contentScript.js:200-221 | every sequence of events from a valid session ends in a valid session |
| LinkPicker.ActivateIdempotent | src/contentScript/contentScript.js:223-227 | a second activation message leaves the session as the first one left it |
| LinkPicker.ClickWithoutLinksIsIgnored | src/contentScript/contentScript.js:560-565 | clicking an unselected element without links changes nothing and has no effect |
| LinkPicker.ClickLabelShowsSize | src/contentScript/contentScript.js:621-627 | after a toggling click, the label's number is the number of distinct selected links |
| LinkPicker.SelectThenDeselectRestores | src/contentScript/contentScript.js:568-585 | selecting an element whose links are all new, then clicking it again, restores the session exactly |
| LinkPicker.SelectThenDeselectRestoresOnPage | src/contentScript/contentScript.js:591-619 | the same holds on any page, with the duplicate-freedom of the links supplied by `extractLinksFromElement` |
| LinkPicker.SelectThenDeselectLosesShared | src/contentScript/contentScript.js:578-585 | when the element shares a link with the earlier selection, selecting and deselecting loses that link, so the count ends lower than it started |
| LinkPicker.DeselectDropsSharedLink | src/contentScript/contentScript.js:578-585 | with two elements yielding the same link, deselecting one empties the link set although the other element stays selected |
| LinkPicker.FirstElementDeselected | src/contentScript/contentScript.js:578-589 | of two selected elements sharing their only link, deselecting the first empties the link set and keeps the second marked |
| LinkPicker.SharedLinkOccurs | src/contentScript/contentScript.js:591-619 | two divs, each with an anchor to the same address, yield the same single link |
| LinkPicker.ExtractOneLink | src/contentScript/contentScript.js:591-619 | a div with one anchor to an absolute https address yields exactly that address |
| LinkPicker.Persist | src/contentScript/contentScript.js:637-640 | effects other than storing or removing results leave the two storage keys untouched |
| LinkPicker.FinishWithoutLinksBlocked | src/contentScript/contentScript.js:629-635 | Done with nothing selected alerts, keeps the session active, and leaves storage untouched |
| LinkPicker.FinishStoresSelection | src/contentScript/contentScript.js:636-660 | Done with links stores exactly the selected links, each once, with the click's time; it schedules cleanup, and the timer restores the initial record |
| LinkPicker.CancelClearsStorage | src/contentScript/contentScript.js:697-711 | Cancel by button or Escape clears the stored results, reports no links, and ends the session |
| LinkPicker.StaleTimerEndsLaterSession | src/contentScript/contentScript.js:656-659 | a cleanup timer left over from an earlier Done also ends a session that was started after a cancel |
| LinkPicker.PickOneLinkScenario | src/contentScript/contentScript.js:629-661 | after activating, picking one element with one link and pressing Done, the label read "1 link", storage holds that link with the time, and the timer restores the initial record |
| PageCapture.FirstBase | src/contentScript/contentScript.js:19-23 | the first `<base>` in document order is found exactly when the head has one |
| PageCapture.EnsureTitle | src/contentScript/contentScript.js:9-15 | a title element with the document's title is appended exactly when the head has none, and afterwards it has one |
| PageCapture.EnsureBase | src/contentScript/contentScript.js:19-27 | a base element without `href` is appended exactly when the head has none, and afterwards it has one |
| PageCapture.BaseHref | src/contentScript/contentScript.js:34-38 | the base `href` is kept when it is present, non-empty and starts with the origin; otherwise the page address replaces it |
| PageCapture.BaseHrefAtOrigin | src/contentScript/contentScript.js:34-38 | whatever the base held before, the resulting `href` is a non-empty address at the page's origin, provided the page address is |
| PageCapture.BaseHrefIdempotent | src/contentScript/contentScript.js:34-38 | applying the rule to its own result changes nothing |
| PageCapture.FixBaseHref | src/contentScript/contentScript.js:34-38 | only the first base element's `href` changes, and it changes to the value the rule gives |
| PageCapture.PrepareHead | src/contentScript/contentScript.js:6-38 | the prepared head has a title and a base element, the first base's `href` follows the rule, at most two elements were added, and no other child changed |
| PageCapture.PrepareHeadIdempotent | src/contentScript/contentScript.js:6-38 | preparing an already prepared head changes nothing |
| PageCapture.SelectionHtmlAsWritten | src/contentScript/contentScript.js:74-97 | with no selection API, or with no ranges, the output is empty; with the legacy API it is the range's `htmlText`; with n ranges it is the concatenation of n copies of the first range's HTML, so it starts with that HTML and is n times as long |
| PageCapture.GetHtmlOfSelection | src/contentScript/contentScript.js:74-97 | the loop as written computes the first range's HTML repeated once per range |
| PageCapture.SecondRangeLost | src/contentScript/contentScript.js:83-88 | with two different ranges, the code as written outputs the first range twice, while the corrected loop outputs both in order |
| PageCapture.SelectionHtml | src/contentScript/contentScript.js:74-97 | corrected: the output with ranges has their total length, and each range appears right after the ranges before it, so every range is present in order |
| PageCapture.GetHtmlOfAllRanges | src/contentScript/contentScript.js:82-90 | the corrected loop computes the concatenation of all ranges |
| PageCapture.ConcatHasEachRange | src/contentScript/contentScript.js:82-90 | corrected: range i appears in the output right after the ranges before it |
| PageCapture.ConcatLength | src/contentScript/contentScript.js:82-90 | corrected: the output length is the total length of the ranges |
| PageCapture.AsWrittenAgreesOnUniformRanges | src/contentScript/contentScript.js:83-88 | the two versions agree when every range has the same HTML, as in a single-range selection |
| HiddenNodes.LowerAscii | src/contentScript/contentScript.js:52 | lower-casing keeps the length and maps each ASCII capital to its small letter |
| HiddenNodes.Filter | src/contentScript/contentScript.js:51-63 | the filter rejects exactly script, style, noscript and math; it accepts exactly the other elements that lack `offsetParent` or are hidden |
| HiddenNodes.Prune | src/contentScript/contentScript.js:65-69 | pruning keeps a node's own fields and never adds children; other nodes are untouched |
| HiddenNodes.PruneChildren | src/contentScript/contentScript.js:65-69 | no child list grows |
| HiddenNodes.RemoveHiddenNodes | src/contentScript/contentScript.js:48-71 | the root is detached exactly when the filter accepts it and its parent is an HTML element; the resulting tree holds nothing a further pass would remove |
| HiddenNodes.PruneIsClean | src/contentScript/contentScript.js:65-69 | after the iteration, no element remains that it would remove |
| HiddenNodes.CleanIsFixpoint | src/contentScript/contentScript.js:65-69 | on a tree with nothing to remove, the iteration changes nothing |
| HiddenNodes.PruneIdempotent | src/contentScript/contentScript.js:48-71 | a second run removes nothing more |
| HiddenNodes.SurvivingChildKept | src/contentScript/contentScript.js:65-69 | every child that is not removed appears, pruned, in the result |
| HiddenNodes.ResultChildSurvived | src/contentScript/contentScript.js:65-69 | every child in the result is the pruned form of a child that was not removed |
| HiddenNodes.ChildSurvivesIff | src/contentScript/contentScript.js:65-69 | a node is a child of the result exactly when it is the pruned form of a child that was not removed |
| HiddenNodes.RejectedChildKept | src/contentScript/contentScript.js:53-55 | a script, style, noscript or math element is never removed by its own step |
| HiddenNodes.ForeignParentKeepsChildren | src/contentScript/contentScript.js:66 | under a parent that is not an HTML element, no child is removed |
| HiddenNodes.BodyExample | src/contentScript/contentScript.js:48-71 | in a body with a script, a hidden div and an inline SVG, only the script stays |
| HiddenNodes.MathExample | src/contentScript/contentScript.js:51-66 | a `math` element without `offsetParent`, holding a hidden MathML child, stays in the body with that child |

## Left out

- **UI.** Styles, the overlay, the control panel, the tooltip, hover
  highlighting and the success notification are left out (`injectLinkPickerStyles`,
  `createControlPanel`, `highlightElement`, `showTooltip`,
  `showSuccessNotification`, the mousemove handler). They are presentation
  only and do not affect the session.
- **Asynchrony.** Promise sequencing of `browser.storage` and
  `runtime.sendMessage` is not modelled. Each handler's effects are emitted
  at once, in source order. A failed send is ignored in the source, so the
  model has no failure path for it.
- **Timers.** `setTimeout` is a `ScheduleCleanup` effect, and its expiry is a
  separate `CleanupTimer` event.
- **URL parsing.** The WHATWG URL parser is not modelled. It is the `resolve`
  parameter, and the page address is fixed for a session.
- **Layout and style.** `getComputedStyle` and `offsetParent` are opaque node
  fields.
- **Case conversion.** `toLowerCase` is modelled on ASCII letters only.
- **Serialisation.** The serialisation to `outerHTML`, and the `innerHTML` of
  cloned ranges, are opaque strings.
- **Script loading.** `loadPageContextScript` injects a script; it is I/O.
- **Other helpers.** `copyToClipboard`, `downloadMarkdown` and
  `downloadImage` are platform I/O. `notifyExtension` refers to an undefined
  variable.
- **Document snapshot.** `getSelectionAndDom` only wraps the two captures in
  a try/catch that logs errors and returns `null`.
- **Title text.** The title text used by `getHTMLOfDocument` is a parameter
  (`documentTitle`). Where it comes from is not modelled.
- **The offscreen document.** `src/offscreen/offscreen.js` is not part of
  this model. It is a message router whose handlers call conversion
  libraries and platform clipboard and download APIs.
- **Injection guards.** The guards against repeated injection
  (`linkPickerMessageListenerAdded`) are left out: the model has one
  listener.
- **Element identity.** Elements are compared by value, and the `id` field
  stands for DOM node identity.
- **Storage failures.** If `storage.local.set` or `storage.local.remove`
  rejects, the source skips everything in its `.then`: no message is sent
  and no cleanup is scheduled, and after a failed cancel the session stays
  active. The model's `Finish` and `Cancel` assume the storage call
  succeeds and always emit those effects.
- **A static page.** `linksOf` is fixed for each element for the whole
  session, and elements are compared by value. In the source an element
  keeps its identity when the DOM under it changes, so an anchor added
  inside a selected element makes the next click deselect it. Deselection
  then removes the links extracted at that time. The model covers a page
  that does not change during the session.
- **A null selection.** `window.getSelection()` can return `null`, for
  instance in a hidden frame. The source then throws on `rangeCount`, and
  `SelectionApi` has no case for it.
- **Style during the walk.** `getComputedStyle` is evaluated for each node
  when the iterator reaches it, after earlier removals. The model takes
  each node's `hidden` flag as fixed before the walk. `HiddenNodes.Clean`,
  `HiddenNodes.PruneIsClean` and `HiddenNodes.PruneIdempotent` are facts
  about that model. With a style such as `:empty { display: none }` a
  second run in a browser can remove an element that the first run kept,
  after its only child was removed.
- **Event defaults.** The page-click handler's `preventDefault` and
  `stopPropagation` only keep the click from reaching the page. The model's
  page clicks have no other listeners or default actions.
- LinkPicker.Click: its own contract states only that panel clicks are
  ignored and that the active flag and duplicate-freedom are kept. The
  toggling of the target is stated by `LinkPicker.ClickToggles`.
- LinkPicker.Step: its own contract only states that the link set stays
  duplicate-free. Its behaviour per event is stated by the lemmas about
  `Activate`, `Click`, `Finish`, `Cancel` and `Cleanup`.

## Findings

| source | as written | input that shows it | evidently intended | confidence | as-written member | corrected member |
|---|---|---|---|---|---|---|
| src/contentScript/contentScript.js:84 | the loop over `i < selection.rangeCount` calls `selection.getRangeAt(0)` each time, so the first range's HTML is emitted once per range | a selection of two ranges whose HTML is `<b>a</b>` and `<i>b</i>` gives `<b>a</b><b>a</b>` | `getRangeAt(i)`: every range's HTML, in order, as the loop variable suggests | high; not executed | PageCapture.SecondRangeLost | PageCapture.GetHtmlOfAllRanges |

=== FILE: hidden_nodes.dfy ===
/** Removing hidden content from the page before capture (`removeHiddenNodes`
    in src/contentScript/contentScript.js).

    The source walks the subtree with a NodeIterator that shows elements only
    and removes each node the filter accepts, provided its parent is an HTML
    element. Under the NodeIterator rules of section 6.1 of the DOM Standard
    this comes down to a recursive pruning, which is what is modelled here:
      - a node the filter rejects is only not returned: unlike a TreeWalker, a
        NodeIterator still visits its descendants, so a rejected node (script,
        style, noscript, math) is never removed by its own step (it leaves
        only inside a removed ancestor) while its descendants are still
        visited; hidden ones are removed unless their parent is not an HTML
        element, as with a MathML parent inside `math`;
      - once a node is removed the iterator continues after it in the
        document, so nothing inside a removed node is visited;
      - the root is returned and removed like any other node, but removing
        the root does not move the iterator, so its descendants are still
        visited and pruned.

    Layout and style are opaque: whether an element has the `offsetParent`
    property (every HTML element has it, so its absence marks SVG, MathML and
    other foreign elements) and whether its computed style makes it hidden
    are fields of the node.
 */
module HiddenNodes {

  /** An element, or any other node (text, comment), which the iterator does
      not show and so never removes. */
  datatype Node =
    | Element(
        nodeName: string,
        isHtmlElement: bool,    // `node instanceof HTMLElement`
        hasOffsetParent: bool,  // `node.offsetParent !== undefined`
        hidden: bool,           // computed `visibility` is "hidden" or `display` is "none"
        children: seq<Node>)
    | OtherNode(data: string)

  /** The filter's three outcomes; a callback that returns nothing neither
      accepts nor rejects. */
  datatype FilterResult = Accept | Reject | NoVerdict

  function LowerChar(c: char): (d: char)
    ensures 'A' <= c <= 'Z' ==> d as int == c as int + 32
    ensures !('A' <= c <= 'Z') ==> d == c
  {
    if 'A' <= c <= 'Z' then (c as int + 32) as char else c
  }

  /** `toLowerCase()` on the ASCII letters, which are the only ones in the
      names the filter compares against. */
  function LowerAscii(s: string): (r: string)
    ensures |r| == |s|
    ensures forall i | 0 <= i < |s| :: r[i] == LowerChar(s[i])
  {
    seq(|s|, i requires 0 <= i < |s| => LowerChar(s[i]))
  }

  /** Elements the filter rejects, by lower-cased name. */
  const RejectedNames: set<string> := {"script", "style", "noscript", "math"}

  /** The filter callback passed to `createNodeIterator`. */
  function Filter(n: Node): (r: FilterResult)
    requires n.Element?
    ensures r == Reject <==> LowerAscii(n.nodeName) in RejectedNames
    ensures r == Accept <==> LowerAscii(n.nodeName) !in RejectedNames && (!n.hasOffsetParent || n.hidden)
  {
    if LowerAscii(n.nodeName) in RejectedNames then Reject
    else if !n.hasOffsetParent then Accept
    else if n.hidden then Accept
    else NoVerdict
  }

  /** The loop body removes the node the iterator returned when its parent
      is an HTML element. */
  predicate Removed(parentIsHtml: bool, n: Node) {
    n.Element? && Filter(n) == Accept && parentIsHtml
  }

  /** The subtree below `n` after the iteration: removed children are gone
      with everything inside them, the others are pruned in turn. */
  function Prune(n: Node): (r: Node)
    ensures r.Element? == n.Element?
    ensures n.OtherNode? ==> r == n
    ensures n.Element? ==>
      && r.nodeName == n.nodeName && r.isHtmlElement == n.isHtmlElement
      && r.hasOffsetParent == n.hasOffsetParent && r.hidden == n.hidden
      && |r.children| <= |n.children|
    decreases n, 1, 0
  {
    match n
    case OtherNode(_) => n
    case Element(_, _, _, _, children) => n.(children := PruneChildren(n, 0))
  }

  /** The children of `parent` from position `k` on, after the iteration. */
  function PruneChildren(parent: Node, k: nat): (r: seq<Node>)
    requires parent.Element? && k <= |parent.children|
    ensures |r| <= |parent.children| - k
    decreases parent, 0, |parent.children| - k
  {
    if k == |parent.children| then []
    else
      var c := parent.children[k];
      (if Removed(parent.isHtmlElement, c) then [] else [Prune(c)]) + PruneChildren(parent, k + 1)
  }

  /** The outcome of `removeHiddenNodes(root)`: whether the root itself was
      taken out of its parent, and the root's subtree after pruning. */
  datatype Pruned = Pruned(rootDetached: bool, root: Node)

  function RemoveHiddenNodes(root: Node, rootParentIsHtml: bool): (r: Pruned)
    ensures r.rootDetached <==> Removed(rootParentIsHtml, root)
    ensures Clean(r.root)
  {
    PruneIsClean(root);
    Pruned(Removed(rootParentIsHtml, root), Prune(root))
  }

  /** No element in the tree would be removed by a further iteration. */
  predicate Clean(n: Node)
    decreases n
  {
    n.Element? ==>
      forall i | 0 <= i < |n.children| :: !Removed(n.isHtmlElement, n.children[i]) && Clean(n.children[i])
  }

  /** Filtering depends only on a node's own fields, which pruning keeps. */
  lemma RemovedUnchangedByPrune(parentIsHtml: bool, n: Node)
    ensures Removed(parentIsHtml, Prune(n)) == Removed(parentIsHtml, n)
  {
    if n.Element? {
      assert LowerAscii(Prune(n).nodeName) == LowerAscii(n.nodeName);
    }
  }

  /** After the iteration nothing is left that it would remove. */
  lemma {:induction false} PruneIsClean(n: Node)
    ensures Clean(Prune(n))
    decreases n, 1, 0
  {
    if n.Element? {
      PruneChildrenClean(n, 0);
    }
  }

  lemma {:induction false} PruneChildrenClean(parent: Node, k: nat)
    requires parent.Element? && k <= |parent.children|
    ensures forall c | c in PruneChildren(parent, k) :: !Removed(parent.isHtmlElement, c) && Clean(c)
    decreases parent, 0, |parent.children| - k
  {
    if k < |parent.children| {
      var c := parent.children[k];
      PruneChildrenClean(parent, k + 1);
      if !Removed(parent.isHtmlElement, c) {
        PruneIsClean(c);
        RemovedUnchangedByPrune(parent.isHtmlElement, c);
      }
    }
  }

  /** On a tree with nothing to remove the iteration changes nothing. */
  lemma {:induction false} CleanIsFixpoint(n: Node)
    requires Clean(n)
    ensures Prune(n) == n
    decreases n, 1, 0
  {
    if n.Element? {
      CleanChildrenFixpoint(n, 0);
      assert n.children[0..] == n.children;
    }
  }

  lemma {:induction false} CleanChildrenFixpoint(parent: Node, k: nat)
    requires parent.Element? && Clean(parent) && k <= |parent.children|
    ensures PruneChildren(parent, k) == parent.children[k..]
    decreases parent, 0, |parent.children| - k
  {
    if k < |parent.children| {
      var c := parent.children[k];
      CleanChildrenFixpoint(parent, k + 1);
      CleanIsFixpoint(c);
      assert parent.children[k..] == [c] + parent.children[k + 1..];
    }
  }

  /** Running the removal a second time removes nothing more. */
  lemma PruneIdempotent(n: Node)
    ensures Prune(Prune(n)) == Prune(n)
  {
    PruneIsClean(n);
    CleanIsFixpoint(Prune(n));
  }

  /** Every child that is not removed survives, pruned, in the result. In
      particular a script, style, noscript or math element is never removed
      by its own step; hidden elements inside script, style and noscript are,
      while those under a MathML parent inside `math` are kept
      (`MathExample`). */
  lemma {:induction false} SurvivingChildKept(parent: Node, k: nat, i: nat)
    requires parent.Element? && k <= i < |parent.children|
    requires !Removed(parent.isHtmlElement, parent.children[i])
    ensures Prune(parent.children[i]) in PruneChildren(parent, k)
    decreases i - k
  {
    if k < i {
      SurvivingChildKept(parent, k + 1, i);
    }
  }

  /** Conversely, every child in the result is the pruned form of a child that
      was not removed. */
  lemma {:induction false} ResultChildSurvived(parent: Node, k: nat, c: Node)
    requires parent.Element? && k <= |parent.children|
    requires c in PruneChildren(parent, k)
    ensures exists i | k <= i < |parent.children| ::
      !Removed(parent.isHtmlElement, parent.children[i]) && c == Prune(parent.children[i])
    decreases |parent.children| - k
  {
    var child := parent.children[k];
    if !Removed(parent.isHtmlElement, child) && c == Prune(child) {
    } else {
      ResultChildSurvived(parent, k + 1, c);
    }
  }

  /** A child of `parent` is in the pruned parent exactly when it was not
      removed (taken by value, up to pruning). */
  lemma ChildSurvivesIff(parent: Node, c: Node)
    requires parent.Element?
    ensures c in Prune(parent).children <==>
      exists i | 0 <= i < |parent.children| ::
        !Removed(parent.isHtmlElement, parent.children[i]) && c == Prune(parent.children[i])
  {
    if c in Prune(parent).children {
      ResultChildSurvived(parent, 0, c);
    }
    if exists i | 0 <= i < |parent.children| ::
        !Removed(parent.isHtmlElement, parent.children[i]) && c == Prune(parent.children[i]) {
      var i :| 0 <= i < |parent.children| &&
        !Removed(parent.isHtmlElement, parent.children[i]) && c == Prune(parent.children[i]);
      SurvivingChildKept(parent, 0, i);
    }
  }

  /** A rejected element is never removed by its own iteration step. */
  lemma RejectedChildKept(parent: Node, i: nat)
    requires parent.Element? && i < |parent.children|
    requires parent.children[i].Element? && Filter(parent.children[i]) == Reject
    ensures Prune(parent.children[i]) in Prune(parent).children
  {
    SurvivingChildKept(parent, 0, i);
  }

  /** Under a parent that is not an HTML element (inside an SVG drawing, for
      instance) no child is removed, hidden or not. */
  lemma {:induction false} ForeignParentKeepsChildren(parent: Node, k: nat)
    requires parent.Element? && !parent.isHtmlElement && k <= |parent.children|
    ensures |PruneChildren(parent, k)| == |parent.children| - k
    decreases |parent.children| - k
  {
    if k < |parent.children| {
      ForeignParentKeepsChildren(parent, k + 1);
    }
  }

  /** A body holding a script, a hidden div and an inline SVG drawing: the
      script stays, the hidden div goes, and so does the drawing, because an
      SVG element has no `offsetParent` property. */
  lemma BodyExample()
    ensures var script := Element("SCRIPT", true, true, false, []);
      var hiddenDiv := Element("DIV", true, true, true, [OtherNode("secret")]);
      var drawing := Element("svg", false, false, false, []);
      var body := Element("BODY", true, true, false, [script, hiddenDiv, drawing]);
      RemoveHiddenNodes(body, true) == Pruned(false, Element("BODY", true, true, false, [script]))
  {
    var script := Element("SCRIPT", true, true, false, []);
    var hiddenDiv := Element("DIV", true, true, true, [OtherNode("secret")]);
    var drawing := Element("svg", false, false, false, []);
    var body := Element("BODY", true, true, false, [script, hiddenDiv, drawing]);
    assert LowerAscii("SCRIPT") == "script";
    assert LowerAscii("DIV") == "div";
    assert LowerAscii("svg") == "svg";
    assert LowerAscii("BODY") == "body";
    assert Filter(script) == Reject;
    assert Removed(true, hiddenDiv) && Removed(true, drawing);
    assert Prune(script) == script;
    assert PruneChildren(body, 3) == [];
    assert PruneChildren(body, 2) == [];
    assert PruneChildren(body, 1) == [];
    assert PruneChildren(body, 0) == [script];
  }

  /** A MathML formula with a hidden part: `math` is rejected by name before
      the `offsetParent` test, so it stays although it has no such property,
      and its hidden child stays too because `math` is not an HTML element. */
  lemma MathExample()
    ensures var mi := Element("mi", false, false, true, [OtherNode("x")]);
      var math := Element("math", false, false, false, [mi]);
      var body := Element("BODY", true, true, false, [math]);
      RemoveHiddenNodes(body, true) == Pruned(false, body)
  {
    var mi := Element("mi", false, false, true, [OtherNode("x")]);
    var math := Element("math", false, false, false, [mi]);
    var body := Element("BODY", true, true, false, [math]);
    assert LowerAscii("math") == "math";
    assert LowerAscii("mi") == "mi";
    assert LowerAscii("BODY") == "body";
    assert Filter(math) == Reject;
    assert !Removed(false, mi);
    assert PruneChildren(mi, 0) == [OtherNode("x")];
    assert Prune(mi) == mi;
    assert PruneChildren(math, 0) == [mi];
    assert Prune(math) == math;
    assert PruneChildren(body, 0) == [math];
  }
}

=== FILE: insertion_set.dfy ===
/** A JavaScript `Set` of values, which keeps each value once and iterates in
    insertion order, modelled as a duplicate-free sequence. `Add` and `Delete`
    are `Set.prototype.add` and `Set.prototype.delete`; `AddAll` and
    `DeleteAll` are the `forEach` loops the link picker runs over a list of
    links. The size of the set is the length of the sequence.
 */
module InsertionSet {

  /** No value occurs twice. */
  ghost predicate NoDup<T>(s: seq<T>) {
    forall i, j | 0 <= i < j < |s| :: s[i] != s[j]
  }

  /** The values the set holds, forgetting their order. */
  function Elems<T(==)>(s: seq<T>): set<T> {
    set x | x in s
  }

  /** The values of `s` that are not in `d`, in their original order. */
  function Keep<T(==)>(s: seq<T>, d: set<T>): seq<T> {
    if |s| == 0 then []
    else (if s[0] in d then [] else [s[0]]) + Keep(s[1..], d)
  }

  lemma NoDupCons<T>(x: T, s: seq<T>)
    requires NoDup(s) && x !in s
    ensures NoDup([x] + s)
  {
  }

  /** The tail of a duplicate-free sequence is duplicate-free and does not
      hold the head. */
  lemma NoDupTail<T>(s: seq<T>)
    requires NoDup(s) && |s| > 0
    ensures NoDup(s[1..]) && s[0] !in s[1..]
  {
    forall i, j | 0 <= i < j < |s[1..]| ensures s[1..][i] != s[1..][j] {
      assert s[1..][i] == s[i + 1] && s[1..][j] == s[j + 1];
    }
    forall k | 0 <= k < |s[1..]| ensures s[1..][k] != s[0] {
      assert s[1..][k] == s[k + 1];
    }
  }

  /** For a duplicate-free sequence, the size of the JavaScript set (its
      length) is the number of distinct values it holds. */
  lemma {:induction false} SizeIsCardinality<T>(s: seq<T>)
    requires NoDup(s)
    ensures |Elems(s)| == |s|
  {
    if |s| > 0 {
      NoDupTail(s);
      SizeIsCardinality(s[1..]);
      assert s[0] !in Elems(s[1..]);
      assert Elems(s) == {s[0]} + Elems(s[1..]) by {
        assert s == [s[0]] + s[1..];
      }
    }
  }

  /** `set.add(x)`: the value is appended unless it is already present. */
  function Add<T(==)>(s: seq<T>, x: T): (r: seq<T>)
    ensures Elems(r) == Elems(s) + {x}
    ensures NoDup(s) ==> NoDup(r)
    ensures s <= r
    ensures |r| == if x in s then |s| else |s| + 1
  {
    if x in s then s else s + [x]
  }

  /** `set.delete(x)`: every occurrence of the value goes, the rest keeps its
      order (`DeleteKeepsOrder`). */
  function Delete<T(==)>(s: seq<T>, x: T): (r: seq<T>)
    ensures Elems(r) == Elems(s) - {x}
    ensures NoDup(s) ==> NoDup(r)
    ensures |r| <= |s|
  {
    KeepContents(s, {x});
    Keep(s, {x})
  }

  /** Deleting a value from a set removes exactly its one position; the
      values before and after it stay in their order. */
  lemma DeleteKeepsOrder<T>(s: seq<T>, i: nat)
    requires NoDup(s) && i < |s|
    ensures Delete(s, s[i]) == s[..i] + s[i + 1..]
  {
    NoDupSplit(s, i);
    assert s == s[..i] + [s[i]] + s[i + 1..];
    DeleteBetween(s[..i], s[i], s[i + 1..]);
  }

  lemma NoDupSplit<T>(s: seq<T>, i: nat)
    requires NoDup(s) && i < |s|
    ensures s[i] !in s[..i] && s[i] !in s[i + 1..]
  {
  }

  lemma DeleteBetween<T>(before: seq<T>, x: T, after: seq<T>)
    requires x !in before && x !in after
    ensures Delete(before + [x] + after, x) == before + after
  {
    var front := before + [x];
    assert Keep(front, {x}) == before by {
      KeepAppend(before, [x], {x});
      KeepDisjoint(before, {x});
      assert Keep([x], {x}) == [];
    }
    assert Keep(after, {x}) == after by {
      KeepDisjoint(after, {x});
    }
    KeepAppend(front, after, {x});
  }

  /** `xs.forEach(x => set.add(x))`. */
  function AddAll<T(==)>(s: seq<T>, xs: seq<T>): (r: seq<T>)
    ensures Elems(r) == Elems(s) + Elems(xs)
    ensures NoDup(s) ==> NoDup(r)
    ensures s <= r
    decreases |xs|
  {
    if |xs| == 0 then s
    else
      assert Elems(xs) == {xs[0]} + Elems(xs[1..]) by {
        assert xs == [xs[0]] + xs[1..];
      }
      AddAll(Add(s, xs[0]), xs[1..])
  }

  /** `xs.forEach(x => set.delete(x))`. */
  function DeleteAll<T(==)>(s: seq<T>, xs: seq<T>): (r: seq<T>)
    ensures Elems(r) == Elems(s) - Elems(xs)
    ensures NoDup(s) ==> NoDup(r)
    decreases |xs|
  {
    if |xs| == 0 then s
    else
      assert Elems(xs) == {xs[0]} + Elems(xs[1..]) by {
        assert xs == [xs[0]] + xs[1..];
      }
      DeleteAll(Delete(s, xs[0]), xs[1..])
  }

  /** `Keep` removes exactly the values of `d` and keeps the others in order;
      it never introduces a duplicate. */
  lemma {:induction false} KeepContents<T>(s: seq<T>, d: set<T>)
    ensures Elems(Keep(s, d)) == Elems(s) - d
    ensures NoDup(s) ==> NoDup(Keep(s, d))
    ensures |Keep(s, d)| <= |s|
  {
    if |s| > 0 {
      KeepContents(s[1..], d);
      var head := if s[0] in d then [] else [s[0]];
      var tail := Keep(s[1..], d);
      assert Elems(Keep(s, d)) == Elems(s) - d by {
        assert Elems(s) == {s[0]} + Elems(s[1..]) by {
          assert s == [s[0]] + s[1..];
        }
        assert Elems(head + tail) == Elems(head) + Elems(tail);
      }
      if NoDup(s) && s[0] !in d {
        NoDupTail(s);
        assert s[0] !in tail by {
          assert s[0] !in Elems(tail);
        }
        NoDupCons(s[0], tail);
      }
    }
  }

  lemma {:induction false} KeepAppend<T>(s: seq<T>, t: seq<T>, d: set<T>)
    ensures Keep(s + t, d) == Keep(s, d) + Keep(t, d)
  {
    if |s| > 0 {
      assert (s + t)[1..] == s[1..] + t;
      KeepAppend(s[1..], t, d);
    } else {
      assert s + t == t;
    }
  }

  lemma {:induction false} KeepTwice<T>(s: seq<T>, a: set<T>, b: set<T>)
    ensures Keep(Keep(s, a), b) == Keep(s, a + b)
  {
    if |s| > 0 {
      KeepTwice(s[1..], a, b);
      var head := if s[0] in a then [] else [s[0]];
      KeepAppend(head, Keep(s[1..], a), b);
      if s[0] !in a {
        assert head[1..] == [];
      }
    }
  }

  /** Deleting the values of `xs` one by one is the same as filtering them
      out in a single pass. */
  lemma {:induction false} DeleteAllIsKeep<T>(s: seq<T>, xs: seq<T>)
    ensures DeleteAll(s, xs) == Keep(s, Elems(xs))
    decreases |xs|
  {
    if |xs| == 0 {
      assert Elems(xs) == {};
      KeepNothing(s);
    } else {
      DeleteAllIsKeep(Delete(s, xs[0]), xs[1..]);
      KeepTwice(s, {xs[0]}, Elems(xs[1..]));
      assert xs == [xs[0]] + xs[1..];
      assert Elems(xs) == {xs[0]} + Elems(xs[1..]);
    }
  }

  lemma {:induction false} KeepNothing<T>(s: seq<T>)
    ensures Keep(s, {}) == s
  {
    if |s| > 0 {
      KeepNothing(s[1..]);
      assert s == [s[0]] + s[1..];
    }
  }

  lemma {:induction false} KeepDisjoint<T>(s: seq<T>, d: set<T>)
    requires Elems(s) !! d
    ensures Keep(s, d) == s
  {
    if |s| > 0 {
      assert s[0] in Elems(s);
      assert Elems(s[1..]) <= Elems(s);
      KeepDisjoint(s[1..], d);
      assert s == [s[0]] + s[1..];
    }
  }

  lemma {:induction false} KeepAll<T>(s: seq<T>, d: set<T>)
    requires Elems(s) <= d
    ensures Keep(s, d) == []
  {
    if |s| > 0 {
      assert s[0] in Elems(s);
      assert Elems(s[1..]) <= Elems(s);
      KeepAll(s[1..], d);
    }
  }

  /** Adding values that are all new appends them in their own order. */
  lemma {:induction false} AddAllFresh<T>(s: seq<T>, xs: seq<T>)
    requires NoDup(xs) && Elems(s) !! Elems(xs)
    ensures AddAll(s, xs) == s + xs
    decreases |xs|
  {
    if |xs| > 0 {
      var x, rest := xs[0], xs[1..];
      NoDupTail(xs);
      assert x !in s by {
        assert x in Elems(xs);
      }
      assert Elems(s + [x]) !! Elems(rest) by {
        assert Elems(s + [x]) == Elems(s) + {x};
        assert Elems(rest) <= Elems(xs);
      }
      AddAllFresh(s + [x], rest);
      AppendHeadThenTail(s, xs);
    }
  }

  lemma AppendHeadThenTail<T>(s: seq<T>, xs: seq<T>)
    requires |xs| > 0
    ensures s + [xs[0]] + xs[1..] == s + xs
  {
    assert xs == [xs[0]] + xs[1..];
  }

  /** Adding a batch of new values and then deleting the same batch gives back
      the original set, order included. */
  lemma AddThenDeleteFresh<T>(s: seq<T>, xs: seq<T>)
    requires NoDup(xs) && Elems(s) !! Elems(xs)
    ensures DeleteAll(AddAll(s, xs), xs) == s
  {
    AddAllFresh(s, xs);
    DeleteAllIsKeep(s + xs, xs);
    KeepAppend(s, xs, Elems(xs));
    KeepDisjoint(s, Elems(xs));
    KeepAll(xs, Elems(xs));
  }
}

=== FILE: link_count.dfy ===
/** The link counter in the picker's control panel (`updateLinkCount`): the
    number of distinct selected links in decimal, followed by "link" or
    "links". */
module LinkCount {

  predicate IsDigit(c: char) {
    '0' <= c <= '9'
  }

  predicate AllDigits(s: string) {
    forall i | 0 <= i < |s| :: IsDigit(s[i])
  }

  function DigitChar(d: nat): (c: char)
    requires d < 10
    ensures IsDigit(c) && c as int - '0' as int == d
  {
    "0123456789"[d]
  }

  /** Decimal notation of `n` without leading zeros, as JavaScript's template
      literals print a non-negative integer. */
  function Decimal(n: nat): (s: string)
    ensures |s| >= 1 && AllDigits(s)
    ensures s[0] == '0' ==> n == 0
    decreases n
  {
    if n < 10 then [DigitChar(n)]
    else Decimal(n / 10) + [DigitChar(n % 10)]
  }

  /** The number a string of decimal digits denotes. */
  function DecimalValue(s: string): nat
    requires AllDigits(s)
    decreases |s|
  {
    if |s| == 0 then 0
    else DecimalValue(s[..|s| - 1]) * 10 + (s[|s| - 1] as int - '0' as int)
  }

  /** Reading back the printed number gives the number. */
  lemma {:induction false} DecimalRoundTrip(n: nat)
    ensures DecimalValue(Decimal(n)) == n
    decreases n
  {
    var s := Decimal(n);
    if n >= 10 {
      DecimalRoundTrip(n / 10);
      assert s[..|s| - 1] == Decimal(n / 10);
    }
  }

  /** The label text for `count` selected links. */
  function Label(count: nat): (text: string)
    ensures Decimal(count) <= text
    ensures |text| == |Decimal(count)| + (if count == 1 then 5 else 6)
  {
    Decimal(count) + (if count == 1 then " link" else " links")
  }

  /** The digits at the head of a label. */
  function LeadingDigits(s: string): (d: string)
    ensures d <= s && AllDigits(d)
    ensures |d| < |s| ==> !IsDigit(s[|d|])
  {
    if |s| == 0 || !IsDigit(s[0]) then ""
    else [s[0]] + LeadingDigits(s[1..])
  }

  /** The count a label shows, read back from its text. */
  function LabelCount(text: string): nat {
    DecimalValue(LeadingDigits(text))
  }

  lemma {:induction false} LeadingDigitsOfDigitsThenSpace(d: string, rest: string)
    requires AllDigits(d) && |rest| > 0 && rest[0] == ' '
    ensures LeadingDigits(d + rest) == d
    decreases |d|
  {
    if |d| > 0 {
      assert (d + rest)[1..] == d[1..] + rest;
      LeadingDigitsOfDigitsThenSpace(d[1..], rest);
      assert d == [d[0]] + d[1..];
    }
  }

  /** The label determines the count: reading the number back off the label
      gives the number of selected links, and the singular form appears
      exactly when that number is 1. */
  lemma LabelShowsCount(count: nat)
    ensures LabelCount(Label(count)) == count
    ensures Label(count)[|Label(count)| - 1] == 's' <==> count != 1
  {
    var suffix := if count == 1 then " link" else " links";
    LeadingDigitsOfDigitsThenSpace(Decimal(count), suffix);
    DecimalRoundTrip(count);
  }

  /** Two different counts never show the same label. */
  lemma LabelInjective(a: nat, b: nat)
    requires Label(a) == Label(b)
    ensures a == b
  {
    LabelShowsCount(a);
    LabelShowsCount(b);
  }

  /** The label in the singular and plural, zero included. */
  lemma LabelExamples()
    ensures Label(0) == "0 links"
    ensures Label(1) == "1 link"
    ensures Label(2) == "2 links"
    ensures Label(12) == "12 links"
  {
    assert Decimal(12) == Decimal(1) + [DigitChar(2)];
  }
}

=== FILE: link_extraction.dfy ===
/** Collecting the absolute HTTP(S) links an element contributes to the link
    picker (`extractLinksFromElement` in src/contentScript/contentScript.js).

    URL parsing is not modelled: a `Page` carries its address and an
    uninterpreted resolver standing for `new URL(href, base)`, which either
    fails (`None`, the constructor throws) or yields the parsed URL's
    `protocol` and serialised `href`.
 */
module LinkExtraction {
  import opened Optional
  import opened InsertionSet

  /** The two fields of a parsed URL the picker reads. */
  datatype ParsedUrl = ParsedUrl(protocol: string, href: string)

  type Resolver = (string, string) -> Option<ParsedUrl>

  /** The page the content script runs in: `window.location.href` and URL
      resolution against a base. */
  datatype Page = Page(location: string, resolve: Resolver)

  /** A page element, as far as link extraction sees it: an identity, its tag
      name, its `href` property (the resolved target, "" when it has none),
      its `href` attribute ("" when absent) and the `href` attributes of the
      `a[href]` elements below it, in document order. */
  datatype Elem = Elem(
    id: nat,
    tagName: string,
    hrefProperty: string,
    hrefAttribute: string,
    anchorHrefs: seq<string>)

  predicate IsWebProtocol(protocol: string) {
    protocol == "http:" || protocol == "https:"
  }

  /** The raw hrefs examined for an element: its `a[href]` descendants, then
      the element itself when it is an anchor with a non-empty target. */
  function Candidates(e: Elem): (hrefs: seq<string>)
    ensures |hrefs| == |e.anchorHrefs| + (if e.tagName == "A" && e.hrefProperty != "" then 1 else 0)
    ensures e.anchorHrefs <= hrefs
    ensures |hrefs| > |e.anchorHrefs| ==> hrefs[|e.anchorHrefs|] == e.hrefAttribute
  {
    e.anchorHrefs + (if e.tagName == "A" && e.hrefProperty != "" then [e.hrefAttribute] else [])
  }

  /** The absolute link one raw href contributes, if any: an empty href, one
      the URL parser rejects and one with a scheme other than http or https
      contribute nothing. */
  function AcceptedUrl(page: Page, href: string): (r: Option<string>)
    ensures r.Some? <==>
      href != "" && page.resolve(href, page.location).Some?
      && IsWebProtocol(page.resolve(href, page.location).value.protocol)
    ensures r.Some? ==> r.value == page.resolve(href, page.location).value.href
  {
    if href == "" then None
    else
      match page.resolve(href, page.location)
      case None => None
      case Some(url) => if IsWebProtocol(url.protocol) then Some(url.href) else None
  }

  /** Reference definition: the set of links a list of raw hrefs yields. */
  ghost function AcceptedSet(page: Page, hrefs: seq<string>): set<string> {
    set h | h in hrefs && AcceptedUrl(page, h).Some? :: AcceptedUrl(page, h).value
  }

  lemma AcceptedSetCons(page: Page, hrefs: seq<string>)
    requires |hrefs| > 0
    ensures AcceptedSet(page, hrefs) ==
      (if AcceptedUrl(page, hrefs[0]).Some? then {AcceptedUrl(page, hrefs[0]).value} else {})
      + AcceptedSet(page, hrefs[1..])
  {
    assert hrefs == [hrefs[0]] + hrefs[1..];
    forall h ensures h in hrefs <==> h == hrefs[0] || h in hrefs[1..] {
    }
  }

  /** The `forEach` over the candidate hrefs, adding each accepted link to the
      insertion-ordered set `acc`. */
  function Collect(page: Page, hrefs: seq<string>, acc: seq<string>): (r: seq<string>)
    requires NoDup(acc)
    ensures NoDup(r)
    ensures Elems(r) == Elems(acc) + AcceptedSet(page, hrefs)
    ensures acc <= r
    decreases |hrefs|
  {
    if |hrefs| == 0 then acc
    else
      AcceptedSetCons(page, hrefs);
      var acc' := match AcceptedUrl(page, hrefs[0])
        case None => acc
        case Some(link) => Add(acc, link);
      Collect(page, hrefs[1..], acc')
  }

  /** `extractLinksFromElement(element)`: the distinct accepted links of the
      element's candidate hrefs, in order of first occurrence. */
  function ExtractLinks(page: Page, e: Elem): (links: seq<string>)
    ensures NoDup(links)
    ensures Elems(links) == AcceptedSet(page, Candidates(e))
  {
    Collect(page, Candidates(e), [])
  }

  /** Every extracted link is the serialised form of a non-empty candidate href
      that resolved against the page address to an http: or https: URL. */
  lemma ExtractedLinksAreWebUrls(page: Page, e: Elem, link: string)
    requires link in ExtractLinks(page, e)
    ensures exists h ::
              && h in Candidates(e) && h != ""
              && page.resolve(h, page.location).Some?
              && IsWebProtocol(page.resolve(h, page.location).value.protocol)
              && page.resolve(h, page.location).value.href == link
  {
    assert link in Elems(ExtractLinks(page, e));
    var h :| h in Candidates(e) && AcceptedUrl(page, h).Some? && AcceptedUrl(page, h).value == link;
  }

  /** Conversely, no usable candidate is dropped: each one's absolute link is
      among the extracted links. */
  lemma UsableCandidatesAreExtracted(page: Page, e: Elem, h: string)
    requires h in Candidates(e) && h != ""
    requires page.resolve(h, page.location).Some?
    requires IsWebProtocol(page.resolve(h, page.location).value.protocol)
    ensures page.resolve(h, page.location).value.href in ExtractLinks(page, e)
  {
    assert AcceptedUrl(page, h).value in AcceptedSet(page, Candidates(e));
  }

  /** An element without usable candidate hrefs yields no links: empty hrefs,
      unparsable ones and other schemes are skipped without error. */
  lemma NoUsableCandidateNoLinks(page: Page, e: Elem)
    requires forall h :: h in Candidates(e) ==> AcceptedUrl(page, h).None?
    ensures ExtractLinks(page, e) == []
  {
    var links := ExtractLinks(page, e);
    assert AcceptedSet(page, Candidates(e)) == {};
    SizeIsCardinality(links);
  }

  /** The scenario of a page at https://site.test/ with anchors to a mail
      address, a relative path and an absolute https URL: only the two web
      links are kept, in document order. */
  lemma MixedSchemesExample(page: Page, e: Elem)
    requires page.location == "https://site.test/"
    requires page.resolve("mailto:a@b.com", page.location) == Some(ParsedUrl("mailto:", "mailto:a@b.com"))
    requires page.resolve("/path", page.location) == Some(ParsedUrl("https:", "https://site.test/path"))
    requires page.resolve("https://x.test/y", page.location) == Some(ParsedUrl("https:", "https://x.test/y"))
    requires e.tagName == "DIV"
    requires e.anchorHrefs == ["mailto:a@b.com", "/path", "https://x.test/y"]
    ensures ExtractLinks(page, e) == ["https://site.test/path", "https://x.test/y"]
  {
    var hs := e.anchorHrefs;
    assert Candidates(e) == hs;
    assert AcceptedUrl(page, hs[0]) == None;
    assert AcceptedUrl(page, hs[1]) == Some("https://site.test/path");
    assert AcceptedUrl(page, hs[2]) == Some("https://x.test/y");
    assert hs[1..] == ["/path", "https://x.test/y"];
    assert hs[2..] == ["https://x.test/y"];
    calc {
      ExtractLinks(page, e);
      Collect(page, hs, []);
      Collect(page, hs[1..], []);
      { assert hs[1..][1..] == hs[2..]; }
      Collect(page, hs[2..], Add([], "https://site.test/path"));
      { assert Add([], "https://site.test/path") == ["https://site.test/path"]; }
      Collect(page, hs[2..], ["https://site.test/path"]);
      { assert hs[2..][1..] == []; }
      Collect(page, [], Add(["https://site.test/path"], "https://x.test/y"));
      { assert Add(["https://site.test/path"], "https://x.test/y") == ["https://site.test/path", "https://x.test/y"]; }
      Collect(page, [], ["https://site.test/path", "https://x.test/y"]);
    }
  }
}

=== FILE: link_picker.dfy ===
/** The link-picker session of the content script
    (src/contentScript/contentScript.js): an overlay mode in which the user
    clicks page elements to collect their links, then finishes or cancels.

    The session is an immutable record and every handler a pure transition
    that returns the new record together with the effects the handler has on
    the world outside the session: extension storage writes and removals,
    runtime messages, alerts, the count label and the cleanup timer. The
    overlay, panel, tooltip and hover highlight are not part of the model.

    The handlers are stated for any function `linksOf` from elements to
    their link lists. On a page the picker runs with
    `PageLinks(page)`, that is with `extractLinksFromElement`
    (LinkExtraction.ExtractLinks); keeping the function abstract lets the
    properties below hold for every page at once.
 */
module LinkPicker {
  import opened Optional
  import opened InsertionSet
  import opened LinkExtraction
  import LinkCount

  const ActivateMessageType := "ACTIVATE_LINK_PICKER"
  const NoLinksAlert := "No links selected. Please select elements containing links before clicking Done."
  /** Delay between a successful finish and the cleanup, in milliseconds. */
  const CleanupDelayMs: nat := 2000

  /** `window.linkPickerState`: `selectedLinks` is a JavaScript `Set`, so an
      insertion-ordered sequence without duplicates; element identity is the
      `Elem` value. */
  datatype Session = Session(active: bool, selectedLinks: seq<string>, selectedElements: set<Elem>)

  /** The record the script starts with and every cleanup restores. */
  const Initial := Session(false, [], {})

  datatype Effect =
    | Respond(success: bool)                             // reply to the activation message
    | ShowCount(text: string)                             // text of the panel's count element
    | Alert(message: string)                             // window.alert
    | StoreResults(links: seq<string>, timestamp: int)   // storage.local.set of both keys
    | RemoveStoredResults                                // storage.local.remove of both keys
    | SendComplete(links: seq<string>)                   // LINK_PICKER_COMPLETE runtime message
    | ScheduleCleanup(delayMs: nat)                      // setTimeout(cleanupLinkPicker, delayMs)

  datatype Transition = Transition(session: Session, effects: seq<Effect>)

  /** What reaches the content script: a runtime message, a click on the page
      (`inPanel` when the target lies inside the control panel), a key press,
      the panel's Done and Cancel buttons (`now` is `Date.now()` at the
      click) and the expiry of the cleanup timer. */
  datatype Event =
    | Message(messageType: string)
    | PageClick(target: Elem, inPanel: bool)
    | KeyDown(key: string)
    | DoneClick(now: int)
    | CancelClick
    | CleanupTimer

  /** `initLinkPickerMode`: ignored while a session is active, otherwise
      starts one with nothing selected. */
  function Activate(s: Session): (r: Session)
    ensures r.active
    ensures s.active ==> r == s
    ensures !s.active ==> r.selectedLinks == [] && r.selectedElements == {}
  {
    if s.active then s else Session(true, [], {})
  }

  /** `selectElement`: an element without links is ignored; otherwise its
      links join the selected set, the element is marked and the label is
      refreshed. */
  function Select(linksOf: Elem -> seq<string>, s: Session, e: Elem): (t: Transition)
    requires NoDup(s.selectedLinks)
    ensures |linksOf(e)| == 0 ==> t == Transition(s, [])
    ensures |linksOf(e)| > 0 ==>
      && t.session.active == s.active
      && NoDup(t.session.selectedLinks)
      && Elems(t.session.selectedLinks) == Elems(s.selectedLinks) + Elems(linksOf(e))
      && s.selectedLinks <= t.session.selectedLinks
      && t.session.selectedElements == s.selectedElements + {e}
      && t.effects == [ShowCount(LinkCount.Label(|Elems(t.session.selectedLinks)|))]
  {
    var links := linksOf(e);
    if |links| == 0 then Transition(s, [])
    else
      var selected := AddAll(s.selectedLinks, links);
      SizeIsCardinality(selected);
      Transition(
        Session(s.active, selected, s.selectedElements + {e}),
        [ShowCount(LinkCount.Label(|selected|))])
  }

  /** `deselectElement`: every link the element yields leaves the selected
      set, whether or not another selected element also yields it, and the
      element is unmarked. */
  function Deselect(linksOf: Elem -> seq<string>, s: Session, e: Elem): (t: Transition)
    requires NoDup(s.selectedLinks)
    ensures t.session.active == s.active
    ensures NoDup(t.session.selectedLinks)
    ensures Elems(t.session.selectedLinks) == Elems(s.selectedLinks) - Elems(linksOf(e))
    ensures t.session.selectedElements == s.selectedElements - {e}
    ensures t.effects == [ShowCount(LinkCount.Label(|Elems(t.session.selectedLinks)|))]
  {
    var selected := DeleteAll(s.selectedLinks, linksOf(e));
    SizeIsCardinality(selected);
    Transition(
      Session(s.active, selected, s.selectedElements - {e}),
      [ShowCount(LinkCount.Label(|selected|))])
  }

  /** The capturing click handler: clicks inside the panel are left to the
      panel; any other click toggles the target's selection. */
  function Click(linksOf: Elem -> seq<string>, s: Session, e: Elem, inPanel: bool): (t: Transition)
    requires NoDup(s.selectedLinks)
    ensures inPanel ==> t == Transition(s, [])
    ensures t.session.active == s.active
    ensures NoDup(t.session.selectedLinks)
  {
    if inPanel then Transition(s, [])
    else if e in s.selectedElements then Deselect(linksOf, s, e)
    else Select(linksOf, s, e)
  }

  /** A click outside the panel toggles its target: afterwards the target is
      selected exactly when it was not before and it yields a link, and no
      other element changes state. */
  lemma ClickToggles(linksOf: Elem -> seq<string>, s: Session, e: Elem)
    requires NoDup(s.selectedLinks)
    ensures var t := Click(linksOf, s, e, false);
      && (e in t.session.selectedElements <==> e !in s.selectedElements && |linksOf(e)| > 0)
      && t.session.selectedElements - {e} == s.selectedElements - {e}
  {
    ClickTargetMarks(linksOf, s, e);
    Toggled(s.selectedElements, Click(linksOf, s, e, false).session.selectedElements, e, |linksOf(e)| > 0);
  }

  /** Removing a present element, or adding an absent one when allowed,
      toggles exactly that element. */
  lemma Toggled(before: set<Elem>, after: set<Elem>, e: Elem, allowed: bool)
    requires after == if e in before then before - {e} else if allowed then before + {e} else before
    ensures e in after <==> e !in before && allowed
    ensures after - {e} == before - {e}
  {
  }

  /** The marked elements after a click outside the panel, by case. */
  lemma ClickTargetMarks(linksOf: Elem -> seq<string>, s: Session, e: Elem)
    requires NoDup(s.selectedLinks)
    ensures Click(linksOf, s, e, false).session.selectedElements ==
      if e in s.selectedElements then s.selectedElements - {e}
      else if |linksOf(e)| > 0 then s.selectedElements + {e}
      else s.selectedElements
  {
  }

  /** `finishLinkPicker`: with no links an alert blocks it; otherwise the
      links and the time are stored, the popup is told, and cleanup is
      scheduled. The session itself is unchanged until the timer fires. */
  function Finish(s: Session, now: int): (t: Transition)
    ensures t.session == s
    ensures (exists i | 0 <= i < |t.effects| :: t.effects[i].StoreResults?) <==> |s.selectedLinks| > 0
    ensures forall i | 0 <= i < |t.effects| && t.effects[i].StoreResults? ::
      t.effects[i].links == s.selectedLinks && t.effects[i].timestamp == now
    ensures |s.selectedLinks| == 0 ==> t.effects == [Alert(NoLinksAlert)]
    ensures |s.selectedLinks| > 0 ==>
      && SendComplete(s.selectedLinks) in t.effects
      && ScheduleCleanup(CleanupDelayMs) in t.effects
      && (forall st :: Persist(st, t.effects) == Storage(Some(s.selectedLinks), Some(now)))
    ensures |s.selectedLinks| > 0 ==>
      && |t.effects| > 0 && t.effects[0] == StoreResults(s.selectedLinks, now)
      && forall i | 0 <= i < |t.effects| :: !t.effects[i].Alert? && !t.effects[i].RemoveStoredResults?
    ensures forall i | 0 <= i < |t.effects| && t.effects[i].SendComplete? :: t.effects[i].links == s.selectedLinks
  {
    var links := s.selectedLinks;
    if |links| == 0 then Transition(s, [Alert(NoLinksAlert)])
    else
      var t := Transition(s, [StoreResults(links, now), SendComplete(links), ScheduleCleanup(CleanupDelayMs)]);
      assert t.effects[0].StoreResults?;
      t
  }

  /** `cleanupLinkPicker`, as far as the session goes: whatever the record
      held, it is replaced by the initial one. */
  function Cleanup(s: Session): (r: Session)
    ensures !r.active && r.selectedLinks == [] && r.selectedElements == {}
  {
    Initial
  }

  /** `cancelLinkPicker`: stored results are removed, the popup is told that
      no links were picked, and the session is cleaned up. */
  function Cancel(s: Session): (t: Transition)
    ensures t.session == Initial
    ensures forall st :: Persist(st, t.effects) == Storage(None, None)
    ensures SendComplete([]) in t.effects
    ensures forall i | 0 <= i < |t.effects| :: !t.effects[i].StoreResults? && !t.effects[i].Alert?
    ensures forall i | 0 <= i < |t.effects| ::
      !t.effects[i].ScheduleCleanup? && (t.effects[i].SendComplete? ==> t.effects[i].links == [])
  {
    var t := Transition(Cleanup(s), [RemoveStoredResults, SendComplete([])]);
    assert t.effects[1..][1..] == [];
    t
  }

  /** One event. The page listeners and the panel exist only while a session
      is active, so page clicks, keys and button clicks do nothing otherwise;
      the activation listener and a pending timer work in any state. */
  function Step(linksOf: Elem -> seq<string>, s: Session, ev: Event): (t: Transition)
    requires NoDup(s.selectedLinks)
    ensures NoDup(t.session.selectedLinks)
  {
    match ev
    case Message(messageType) =>
      if messageType == ActivateMessageType then Transition(Activate(s), [Respond(true)])
      else Transition(s, [])
    case PageClick(target, inPanel) =>
      if s.active then Click(linksOf, s, target, inPanel) else Transition(s, [])
    case KeyDown(key) =>
      if s.active && key == "Escape" then Cancel(s) else Transition(s, [])
    case DoneClick(now) =>
      if s.active then Finish(s, now) else Transition(s, [])
    case CancelClick =>
      if s.active then Cancel(s) else Transition(s, [])
    case CleanupTimer =>
      Transition(Cleanup(s), [])
  }

  // ----- Session invariant -----

  /** Some selected element yields `link`. */
  ghost predicate Contributed(linksOf: Elem -> seq<string>, s: Session, link: string) {
    exists e :: e in s.selectedElements && link in linksOf(e)
  }

  /** What holds of every reachable session: the link set has no duplicates,
      an inactive session has nothing selected, every selected element yields
      a link, and every selected link is yielded by some selected element. The
      converse of the last clause does not hold (see DeselectDropsSharedLink). */
  ghost predicate Valid(linksOf: Elem -> seq<string>, s: Session) {
    && NoDup(s.selectedLinks)
    && (!s.active ==> s.selectedLinks == [] && s.selectedElements == {})
    && (forall e :: e in s.selectedElements ==> |linksOf(e)| > 0)
    && (forall link :: link in s.selectedLinks ==> Contributed(linksOf, s, link))
  }

  lemma InitialValid(linksOf: Elem -> seq<string>)
    ensures Valid(linksOf, Initial)
  {
  }

  lemma SelectPreservesValid(linksOf: Elem -> seq<string>, s: Session, e: Elem)
    requires Valid(linksOf, s) && s.active && e !in s.selectedElements
    ensures Valid(linksOf, Select(linksOf, s, e).session)
  {
    var links := linksOf(e);
    var s' := Select(linksOf, s, e).session;
    if |links| > 0 {
      ValidAfterAdding(linksOf, s, s', e);
    } else {
      assert s' == s;
    }
  }

  /** A session that adds the links of a further element, and marks it, is
      still valid. */
  lemma ValidAfterAdding(linksOf: Elem -> seq<string>, s: Session, s': Session, e: Elem)
    requires Valid(linksOf, s) && |linksOf(e)| > 0
    requires s'.active && NoDup(s'.selectedLinks)
    requires Elems(s'.selectedLinks) == Elems(s.selectedLinks) + Elems(linksOf(e))
    requires s'.selectedElements == s.selectedElements + {e}
    ensures Valid(linksOf, s')
  {
    assert forall w :: w in s'.selectedElements ==> |linksOf(w)| > 0;
    forall link | link in s'.selectedLinks ensures Contributed(linksOf, s', link) {
      LinkFromSelectedElement(linksOf, s, s', e, linksOf(e), link);
    }
  }

  lemma LinkFromSelectedElement(linksOf: Elem -> seq<string>, s: Session, s': Session, e: Elem, links: seq<string>, link: string)
    requires links == linksOf(e)
    requires forall l :: l in s.selectedLinks ==> Contributed(linksOf, s, l)
    requires Elems(s'.selectedLinks) == Elems(s.selectedLinks) + Elems(links)
    requires s'.selectedElements == s.selectedElements + {e}
    requires link in s'.selectedLinks
    ensures Contributed(linksOf, s', link)
  {
    assert link in Elems(s'.selectedLinks);
    if link in s.selectedLinks {
      var w :| w in s.selectedElements && link in linksOf(w);
      assert w in s'.selectedElements;
    } else {
      assert link in Elems(links);
      assert e in s'.selectedElements;
    }
  }

  lemma DeselectPreservesValid(linksOf: Elem -> seq<string>, s: Session, e: Elem)
    requires Valid(linksOf, s) && s.active && e in s.selectedElements
    ensures Valid(linksOf, Deselect(linksOf, s, e).session)
  {
    var links := linksOf(e);
    var s' := Deselect(linksOf, s, e).session;
    assert Elems(s'.selectedLinks) == Elems(s.selectedLinks) - Elems(links);
    assert s'.selectedElements == s.selectedElements - {e};
    forall link | link in s'.selectedLinks ensures Contributed(linksOf, s', link) {
      LinkStillContributed(linksOf, s, s', e, links, link);
    }
  }

  lemma LinkStillContributed(linksOf: Elem -> seq<string>, s: Session, s': Session, e: Elem, links: seq<string>, link: string)
    requires links == linksOf(e)
    requires forall l :: l in s.selectedLinks ==> Contributed(linksOf, s, l)
    requires Elems(s'.selectedLinks) == Elems(s.selectedLinks) - Elems(links)
    requires s'.selectedElements == s.selectedElements - {e}
    requires link in s'.selectedLinks
    ensures Contributed(linksOf, s', link)
  {
    assert link in Elems(s'.selectedLinks);
    assert link in Elems(s.selectedLinks) && link !in Elems(links);
    var w :| w in s.selectedElements && link in linksOf(w);
    assert w != e;
    assert w in s'.selectedElements;
  }

  /** Every handler keeps the session invariant. */
  lemma StepPreservesValid(linksOf: Elem -> seq<string>, s: Session, ev: Event)
    requires Valid(linksOf, s)
    ensures Valid(linksOf, Step(linksOf, s, ev).session)
  {
    match ev
    case PageClick(target, inPanel) =>
      if s.active && !inPanel {
        if target in s.selectedElements {
          DeselectPreservesValid(linksOf, s, target);
        } else {
          SelectPreservesValid(linksOf, s, target);
        }
      }
    case _ =>
  }

  /** A sequence of events, with the effects of each in order. */
  function Run(linksOf: Elem -> seq<string>, s: Session, events: seq<Event>): (t: Transition)
    requires NoDup(s.selectedLinks)
    ensures NoDup(t.session.selectedLinks)
    decreases |events|
  {
    if |events| == 0 then Transition(s, [])
    else
      var first := Step(linksOf, s, events[0]);
      var rest := Run(linksOf, first.session, events[1..]);
      Transition(rest.session, first.effects + rest.effects)
  }

  /** Every session reachable from a valid one is valid. */
  lemma {:induction false} RunPreservesValid(linksOf: Elem -> seq<string>, s: Session, events: seq<Event>)
    requires Valid(linksOf, s)
    ensures Valid(linksOf, Run(linksOf, s, events).session)
    decreases |events|
  {
    if |events| > 0 {
      StepPreservesValid(linksOf, s, events[0]);
      RunPreservesValid(linksOf, Step(linksOf, s, events[0]).session, events[1..]);
    }
  }

  // ----- Activation and clicks -----

  /** A duplicate activation message changes nothing: activating twice is
      activating once. */
  lemma ActivateIdempotent(linksOf: Elem -> seq<string>, s: Session)
    requires NoDup(s.selectedLinks)
    ensures Step(linksOf, Step(linksOf, s, Message(ActivateMessageType)).session, Message(ActivateMessageType)).session
            == Step(linksOf, s, Message(ActivateMessageType)).session
  {
  }

  /** Clicking an unselected element without links leaves the session as it
      was and has no effect. */
  lemma ClickWithoutLinksIsIgnored(linksOf: Elem -> seq<string>, s: Session, e: Elem)
    requires Valid(linksOf, s) && s.active && e !in s.selectedElements
    requires linksOf(e) == []
    ensures Step(linksOf, s, PageClick(e, false)) == Transition(s, [])
  {
  }

  /** The label after a click shows the number of distinct selected links. */
  lemma ClickLabelShowsSize(linksOf: Elem -> seq<string>, s: Session, e: Elem)
    requires Valid(linksOf, s) && s.active
    requires e in s.selectedElements || |linksOf(e)| > 0
    ensures var t := Step(linksOf, s, PageClick(e, false));
      && t.effects == [ShowCount(LinkCount.Label(|t.session.selectedLinks|))]
      && LinkCount.LabelCount(t.effects[0].text) == |Elems(t.session.selectedLinks)|
  {
    var t := Step(linksOf, s, PageClick(e, false));
    SizeIsCardinality(t.session.selectedLinks);
    LinkCount.LabelShowsCount(|t.session.selectedLinks|);
  }

  /** Selecting an element whose links are all new and then clicking it again
      gives back the session exactly, so the count returns to its value
      before the selection. */
  lemma SelectThenDeselectRestores(linksOf: Elem -> seq<string>, s: Session, e: Elem)
    requires NoDup(s.selectedLinks) && s.active && e !in s.selectedElements
    requires |linksOf(e)| > 0 && NoDup(linksOf(e))
    requires Elems(s.selectedLinks) !! Elems(linksOf(e))
    ensures var s1 := Step(linksOf, s, PageClick(e, false)).session;
      Step(linksOf, s1, PageClick(e, false)).session == s
  {
    ClickSelects(linksOf, s, e);
    ClickAgainRestores(linksOf, s, e);
  }

  lemma ClickAgainRestores(linksOf: Elem -> seq<string>, s: Session, e: Elem)
    requires NoDup(s.selectedLinks) && e !in s.selectedElements && NoDup(linksOf(e))
    requires Elems(s.selectedLinks) !! Elems(linksOf(e))
    ensures var s1 := Session(s.active, AddAll(s.selectedLinks, linksOf(e)), s.selectedElements + {e});
      s1.active ==> Step(linksOf, s1, PageClick(e, false)).session == s
  {
    var s1 := Session(s.active, AddAll(s.selectedLinks, linksOf(e)), s.selectedElements + {e});
    if s1.active {
      ClickDeselects(linksOf, s1, e);
      AddThenDeleteFresh(s.selectedLinks, linksOf(e));
      assert s1.selectedElements - {e} == s.selectedElements;
    }
  }

  /** On a page the duplicate-freedom of the element's links comes from
      `extractLinksFromElement` itself. */
  lemma SelectThenDeselectRestoresOnPage(page: Page, s: Session, e: Elem)
    requires NoDup(s.selectedLinks) && s.active && e !in s.selectedElements
    requires |ExtractLinks(page, e)| > 0
    requires Elems(s.selectedLinks) !! AcceptedSet(page, Candidates(e))
    ensures var linksOf := PageLinks(page);
      var s1 := Step(linksOf, s, PageClick(e, false)).session;
      Step(linksOf, s1, PageClick(e, false)).session == s
  {
    SelectThenDeselectRestores(PageLinks(page), s, e);
  }

  lemma ClickSelects(linksOf: Elem -> seq<string>, s: Session, e: Elem)
    requires NoDup(s.selectedLinks) && s.active && e !in s.selectedElements && |linksOf(e)| > 0
    ensures var selected := AddAll(s.selectedLinks, linksOf(e));
      Step(linksOf, s, PageClick(e, false))
      == Transition(Session(s.active, selected, s.selectedElements + {e}), [ShowCount(LinkCount.Label(|selected|))])
  {
    assert Step(linksOf, s, PageClick(e, false)) == Select(linksOf, s, e);
  }

  lemma ClickDeselects(linksOf: Elem -> seq<string>, s: Session, e: Elem)
    requires NoDup(s.selectedLinks) && s.active && e in s.selectedElements
    ensures Step(linksOf, s, PageClick(e, false)).session
      == Session(s.active, DeleteAll(s.selectedLinks, linksOf(e)), s.selectedElements - {e})
  {
    assert Step(linksOf, s, PageClick(e, false)) == Deselect(linksOf, s, e);
  }

  /** When the element shares a link with the earlier selection, the same
      select-and-deselect loses that link: the count ends below where it
      started. */
  lemma SelectThenDeselectLosesShared(linksOf: Elem -> seq<string>, s: Session, e: Elem, shared: string)
    requires Valid(linksOf, s) && s.active && e !in s.selectedElements
    requires shared in s.selectedLinks && shared in linksOf(e)
    ensures var s1 := Step(linksOf, s, PageClick(e, false)).session;
      var s2 := Step(linksOf, s1, PageClick(e, false)).session;
      shared !in s2.selectedLinks && |s2.selectedLinks| < |s.selectedLinks|
  {
    var links := linksOf(e);
    var s1 := Step(linksOf, s, PageClick(e, false)).session;
    var s2 := Step(linksOf, s1, PageClick(e, false)).session;
    assert shared in Elems(links);
    assert shared !in Elems(s2.selectedLinks);
    assert Elems(s2.selectedLinks) < Elems(s.selectedLinks) by {
      assert shared in Elems(s.selectedLinks);
    }
    SizeIsCardinality(s.selectedLinks);
    SizeIsCardinality(s2.selectedLinks);
  }

  /** A page whose resolver accepts every href as an https URL of the same
      text. */
  function IdentityPage(): Page {
    Page("https://site.test/", (h: string, b: string) => Some(ParsedUrl("https:", h)))
  }

  /** The links `extractLinksFromElement` reports for each element of a
      page: the link function the picker runs with. */
  function PageLinks(page: Page): Elem -> seq<string> {
    e => ExtractLinks(page, e)
  }

  /** A div holding a single anchor to https://a.test/. */
  function DivWithOneLink(id: nat): Elem {
    Elem(id, "DIV", "", "", ["https://a.test/"])
  }

  lemma ExtractOneLink(id: nat)
    ensures ExtractLinks(IdentityPage(), DivWithOneLink(id)) == ["https://a.test/"]
    ensures PageLinks(IdentityPage())(DivWithOneLink(id)) == ["https://a.test/"]
  {
    var page := IdentityPage();
    var hs := Candidates(DivWithOneLink(id));
    assert hs == ["https://a.test/"];
    assert AcceptedUrl(page, hs[0]) == Some("https://a.test/");
    calc {
      ExtractLinks(page, DivWithOneLink(id));
      Collect(page, hs, []);
      { assert hs[1..] == []; }
      Collect(page, [], Add([], "https://a.test/"));
      { assert Add([], "https://a.test/") == ["https://a.test/"]; }
      Collect(page, [], ["https://a.test/"]);
    }
  }

  lemma RunFirst(linksOf: Elem -> seq<string>, s: Session, events: seq<Event>)
    requires NoDup(s.selectedLinks) && |events| > 0
    ensures Run(linksOf, s, events)
      == var first := Step(linksOf, s, events[0]);
         var rest := Run(linksOf, first.session, events[1..]);
         Transition(rest.session, first.effects + rest.effects)
  {
  }

  /** Deselecting one of two elements that share a link drops the link though
      the other element stays selected: the selected links are no longer the
      union of the selected elements' links. */
  lemma DeselectDropsSharedLink(linksOf: Elem -> seq<string>, e1: Elem, e2: Elem, link: string)
    requires e1 != e2 && linksOf(e1) == [link] && linksOf(e2) == [link]
    ensures var s := Run(linksOf, Initial, [Message(ActivateMessageType), PageClick(e1, false), PageClick(e2, false), PageClick(e1, false)]).session;
      && s.active
      && s.selectedElements == {e2}
      && s.selectedLinks == []
      && link in linksOf(e2)
  {
    var evs := [Message(ActivateMessageType), PageClick(e1, false), PageClick(e2, false), PageClick(e1, false)];
    var s0 := Session(true, [], {});
    var s1 := Session(true, [link], {e1});
    var s2 := Session(true, [link], {e1, e2});
    var s3 := Session(true, [], {e2});
    assert Step(linksOf, Initial, evs[0]).session == s0;
    FirstClickShowsOneLink(linksOf, e1, link);
    SecondClickOnSharedLink(linksOf, e1, e2, link);
    FirstElementDeselected(linksOf, e1, e2, link);
    assert Run(linksOf, Initial, evs).session == s3 by {
      RunSession4(linksOf, Initial, evs);
    }
  }

  /** Selecting a second element that yields an already selected link marks
      the element and leaves the link set as it was. */
  lemma SecondClickOnSharedLink(linksOf: Elem -> seq<string>, e1: Elem, e2: Elem, link: string)
    requires e1 != e2 && linksOf(e2) == [link]
    ensures Step(linksOf, Session(true, [link], {e1}), PageClick(e2, false)).session == Session(true, [link], {e1, e2})
  {
    ClickSelects(linksOf, Session(true, [link], {e1}), e2);
    assert AddAll([link], [link]) == [link];
  }

  /** Deselecting the first of two elements that share their only link drops
      the link although the second stays marked. */
  lemma FirstElementDeselected(linksOf: Elem -> seq<string>, e1: Elem, e2: Elem, link: string)
    requires e1 != e2 && linksOf(e1) == [link]
    ensures Step(linksOf, Session(true, [link], {e1, e2}), PageClick(e1, false)).session == Session(true, [], {e2})
  {
    ClickDeselects(linksOf, Session(true, [link], {e1, e2}), e1);
    assert DeleteAll([link], [link]) == [] by {
      assert Delete([link], link) == [];
    }
  }

  /** The situation arises on a real page: two divs, each holding an anchor
      to the same address. */
  lemma SharedLinkOccurs()
    ensures var linksOf := PageLinks(IdentityPage());
      && DivWithOneLink(1) != DivWithOneLink(2)
      && linksOf(DivWithOneLink(1)) == ["https://a.test/"]
      && linksOf(DivWithOneLink(2)) == ["https://a.test/"]
  {
    ExtractOneLink(1);
    ExtractOneLink(2);
  }

  /** The session after four events is the session after each in turn. */
  lemma RunSession4(linksOf: Elem -> seq<string>, s: Session, evs: seq<Event>)
    requires NoDup(s.selectedLinks) && |evs| == 4
    ensures
      var s0 := Step(linksOf, s, evs[0]).session;
      var s1 := Step(linksOf, s0, evs[1]).session;
      var s2 := Step(linksOf, s1, evs[2]).session;
      Run(linksOf, s, evs).session == Step(linksOf, s2, evs[3]).session
  {
    RunFirst(linksOf, s, evs);
    var s0 := Step(linksOf, s, evs[0]).session;
    RunFirst(linksOf, s0, evs[1..]);
    var s1 := Step(linksOf, s0, evs[1]).session;
    RunFirst(linksOf, s1, evs[2..]);
    assert evs[1..][1..] == evs[2..];
    var s2 := Step(linksOf, s1, evs[2]).session;
    RunFirst(linksOf, s2, evs[3..]);
    assert evs[2..][1..] == evs[3..];
    assert evs[3..][1..] == [];
  }

  // ----- Storage -----

  /** The two extension-storage keys the picker owns. */
  datatype Storage = Storage(linkPickerResults: Option<seq<string>>, linkPickerTimestamp: Option<int>)

  /** The storage after a list of effects. */
  function Persist(st: Storage, effects: seq<Effect>): (r: Storage)
    ensures (forall i | 0 <= i < |effects| :: !effects[i].StoreResults? && !effects[i].RemoveStoredResults?) ==> r == st
    decreases |effects|
  {
    if |effects| == 0 then st
    else
      var st' := match effects[0]
        case StoreResults(links, timestamp) => Storage(Some(links), Some(timestamp))
        case RemoveStoredResults => Storage(None, None)
        case _ => st;
      Persist(st', effects[1..])
  }

  /** Done with nothing selected: an alert, the session stays active, and the
      storage is untouched. */
  lemma FinishWithoutLinksBlocked(linksOf: Elem -> seq<string>, s: Session, now: int, st: Storage)
    requires Valid(linksOf, s) && s.active && s.selectedLinks == []
    ensures var t := Step(linksOf, s, DoneClick(now));
      && t.session == s && t.session.active
      && t.effects == [Alert(NoLinksAlert)]
      && Persist(st, t.effects) == st
  {
  }

  /** Done with links selected: the stored list holds exactly the selected
      links, each once, with the click's time; when the cleanup timer fires
      the session is back to its initial record. */
  lemma FinishStoresSelection(linksOf: Elem -> seq<string>, s: Session, now: int, st: Storage)
    requires Valid(linksOf, s) && s.active && |s.selectedLinks| > 0
    ensures var t := Step(linksOf, s, DoneClick(now));
      && t.session.active
      && Persist(st, t.effects) == Storage(Some(s.selectedLinks), Some(now))
      && ScheduleCleanup(CleanupDelayMs) in t.effects
      && Step(linksOf, t.session, CleanupTimer).session == Initial
    ensures NoDup(s.selectedLinks) && |Elems(s.selectedLinks)| == |s.selectedLinks|
  {
    var t := Step(linksOf, s, DoneClick(now));
    assert t.effects[0] == StoreResults(s.selectedLinks, now);
    assert t.effects[1..][1..][1..] == [];
    SizeIsCardinality(s.selectedLinks);
  }

  /** Cancel, by button or Escape, clears whatever results were stored
      before, tells the popup there are no links, and ends the session. */
  lemma CancelClearsStorage(linksOf: Elem -> seq<string>, s: Session, ev: Event, st: Storage)
    requires Valid(linksOf, s) && s.active
    requires ev == CancelClick || ev == KeyDown("Escape")
    ensures var t := Step(linksOf, s, ev);
      && t.session == Initial
      && Persist(st, t.effects) == Storage(None, None)
      && SendComplete([]) in t.effects
  {
    var t := Step(linksOf, s, ev);
    assert t.effects[1..][1..] == [];
  }

  /** A cleanup timer left over from an earlier Done ends whatever session is
      active when it fires, including one started after the earlier session
      was cancelled. */
  lemma StaleTimerEndsLaterSession(linksOf: Elem -> seq<string>, s: Session, now: int)
    requires Valid(linksOf, s) && s.active && |s.selectedLinks| > 0
    ensures var done := Step(linksOf, s, DoneClick(now));
      var cancelled := Step(linksOf, done.session, CancelClick);
      var again := Step(linksOf, cancelled.session, Message(ActivateMessageType));
      && ScheduleCleanup(CleanupDelayMs) in done.effects
      && again.session.active
      && !Step(linksOf, again.session, CleanupTimer).session.active
  {
  }

  /** The end-to-end scenario: an element yielding a single link is picked
      and Done is clicked; the label read "1 link", storage then holds that
      single link, and the timer restores the initial record. (A div with one
      anchor to https://a.test/ is such an element: see ExtractOneLink.) */
  lemma PickOneLinkScenario(linksOf: Elem -> seq<string>, div: Elem, link: string, now: int, st: Storage)
    requires linksOf(div) == [link]
    ensures var t := Run(linksOf, Initial, [Message(ActivateMessageType), PageClick(div, false), DoneClick(now)]);
      && t.session.selectedLinks == [link]
      && ShowCount("1 link") in t.effects
      && Persist(st, t.effects) == Storage(Some([link]), Some(now))
      && Step(linksOf, t.session, CleanupTimer).session == Initial
  {
    var t := Run(linksOf, Initial, [Message(ActivateMessageType), PageClick(div, false), DoneClick(now)]);
    PickOneLinkRun(linksOf, div, link, now);
    PersistPickOne(st, link, now);
    assert t.effects[1] == ShowCount("1 link");
    TimerEndsSession(linksOf, t.session);
  }

  /** Done with one link selected stores it, reports it and schedules the
      cleanup, leaving the session as it is until then. */
  lemma FinishWithOneLink(linksOf: Elem -> seq<string>, div: Elem, link: string, now: int)
    ensures Step(linksOf, Session(true, [link], {div}), DoneClick(now))
      == Transition(Session(true, [link], {div}),
           [StoreResults([link], now), SendComplete([link]), ScheduleCleanup(CleanupDelayMs)])
  {
  }

  /** The cleanup timer ends any session, without further effects. */
  lemma TimerEndsSession(linksOf: Elem -> seq<string>, s: Session)
    requires NoDup(s.selectedLinks)
    ensures Step(linksOf, s, CleanupTimer) == Transition(Initial, [])
  {
  }

  lemma PersistPickOne(st: Storage, link: string, now: int)
    ensures var effects := [Respond(true), ShowCount("1 link"),
              StoreResults([link], now), SendComplete([link]), ScheduleCleanup(CleanupDelayMs)];
      && effects[1] == ShowCount("1 link")
      && Persist(st, effects) == Storage(Some([link]), Some(now))
  {
    var finish := [StoreResults([link], now), SendComplete([link]), ScheduleCleanup(CleanupDelayMs)];
    PersistSkips(st, [Respond(true), ShowCount("1 link")], finish);
    assert finish[1..][1..][1..] == [];
    assert [Respond(true), ShowCount("1 link")] + finish == [Respond(true), ShowCount("1 link"),
              StoreResults([link], now), SendComplete([link]), ScheduleCleanup(CleanupDelayMs)];
  }

  lemma PickOneLinkRun(linksOf: Elem -> seq<string>, div: Elem, link: string, now: int)
    requires linksOf(div) == [link]
    ensures Run(linksOf, Initial, [Message(ActivateMessageType), PageClick(div, false), DoneClick(now)])
      == Transition(Session(true, [link], {div}),
           [Respond(true), ShowCount("1 link"),
            StoreResults([link], now), SendComplete([link]), ScheduleCleanup(CleanupDelayMs)])
  {
    var evs := [Message(ActivateMessageType), PageClick(div, false), DoneClick(now)];
    assert evs[0] == Message(ActivateMessageType) && evs[1] == PageClick(div, false) && evs[2] == DoneClick(now);
    assert Step(linksOf, Initial, evs[0]) == Transition(Session(true, [], {}), [Respond(true)]);
    FirstClickShowsOneLink(linksOf, div, link);
    FinishWithOneLink(linksOf, div, link, now);
    RunThree(linksOf, Initial, evs);
    assert [Respond(true)] + [ShowCount("1 link")] + [StoreResults([link], now), SendComplete([link]), ScheduleCleanup(CleanupDelayMs)]
      == [Respond(true), ShowCount("1 link"), StoreResults([link], now), SendComplete([link]), ScheduleCleanup(CleanupDelayMs)];
  }

  /** In a fresh session, clicking an element with a single link selects it
      and the label reads "1 link". */
  lemma FirstClickShowsOneLink(linksOf: Elem -> seq<string>, div: Elem, link: string)
    requires linksOf(div) == [link]
    ensures Step(linksOf, Session(true, [], {}), PageClick(div, false))
      == Transition(Session(true, [link], {div}), [ShowCount("1 link")])
  {
    ClickSelects(linksOf, Session(true, [], {}), div);
    assert AddAll([], [link]) == [link] by {
      assert Add([], link) == [link];
    }
    LinkCount.LabelExamples();
  }

  /** The outcome of three events is the outcome of each in turn. */
  lemma RunThree(linksOf: Elem -> seq<string>, s: Session, evs: seq<Event>)
    requires NoDup(s.selectedLinks) && |evs| == 3
    ensures
      var t0 := Step(linksOf, s, evs[0]);
      var t1 := Step(linksOf, t0.session, evs[1]);
      var t2 := Step(linksOf, t1.session, evs[2]);
      Run(linksOf, s, evs) == Transition(t2.session, t0.effects + t1.effects + t2.effects)
  {
    RunFirst(linksOf, s, evs);
    var t0 := Step(linksOf, s, evs[0]);
    RunFirst(linksOf, t0.session, evs[1..]);
    var t1 := Step(linksOf, t0.session, evs[1]);
    RunFirst(linksOf, t1.session, evs[2..]);
    assert evs[1..][1..] == evs[2..];
    assert evs[2..][1..] == [];
    var t2 := Step(linksOf, t1.session, evs[2]);
    assert t0.effects + (t1.effects + (t2.effects + [])) == t0.effects + t1.effects + t2.effects;
  }

  lemma PersistSkips(st: Storage, quiet: seq<Effect>, rest: seq<Effect>)
    requires forall i | 0 <= i < |quiet| :: !quiet[i].StoreResults? && !quiet[i].RemoveStoredResults?
    ensures Persist(st, quiet + rest) == Persist(st, rest)
    decreases |quiet|
  {
    if |quiet| > 0 {
      assert (quiet + rest)[1..] == quiet[1..] + rest;
      assert (quiet + rest)[0] == quiet[0];
      assert forall i | 0 <= i < |quiet[1..]| :: quiet[1..][i] == quiet[i + 1];
      PersistSkips(st, quiet[1..], rest);
      assert Persist(st, quiet + rest) == Persist(st, quiet[1..] + rest);
    } else {
      assert quiet + rest == rest;
    }
  }
}

=== FILE: optional.dfy ===
/** An optional value: a JavaScript `null` or a missing attribute is `None`. */
module Optional {

  datatype Option<+T> = None | Some(value: T)
}

=== FILE: page_capture.dfy ===
/** What the content script does to the page before handing its HTML over
    for conversion (`getHTMLOfDocument` and `getHTMLOfSelection` in
    src/contentScript/contentScript.js): the `<head>` gets a title and a base
    element with a usable `href`, and the current selection is serialised.

    The head is modelled as the list of its children that matter here; the
    serialisation of the whole document and the removal of hidden nodes
    (module HiddenNodes) are not part of this module.
 */
module PageCapture {
  import opened Optional

  // ----- The document head -----

  /** A child of `document.head`: a `<title>` with its text, a `<base>` with
      its `href` attribute (`None` when absent), or anything else. */
  datatype HeadChild =
    | Title(text: string)
    | Base(href: Option<string>)
    | OtherHeadChild(tagName: string)

  predicate HasTitle(head: seq<HeadChild>) {
    exists i | 0 <= i < |head| :: head[i].Title?
  }

  /** The position of the first `<base>` at or after `k`, in document order. */
  function FirstBaseFrom(head: seq<HeadChild>, k: nat): (r: Option<nat>)
    requires k <= |head|
    ensures r.Some? ==> k <= r.value < |head| && head[r.value].Base?
    ensures r.Some? ==> forall j | k <= j < r.value :: !head[j].Base?
    ensures r.None? ==> forall j | k <= j < |head| :: !head[j].Base?
    decreases |head| - k
  {
    if k == |head| then None
    else if head[k].Base? then Some(k)
    else FirstBaseFrom(head, k + 1)
  }

  /** `head.getElementsByTagName('base')[0]`, by position. */
  function FirstBase(head: seq<HeadChild>): (r: Option<nat>)
    ensures r.Some? <==> exists i | 0 <= i < |head| :: head[i].Base?
    ensures r.Some? ==> r.value < |head| && head[r.value].Base?
    ensures r.Some? ==> forall j | 0 <= j < r.value :: !head[j].Base?
  {
    FirstBaseFrom(head, 0)
  }

  /** The `href` attribute of the first base element, `None` when there is no
      base element or it has no `href`. */
  function FirstBaseHref(head: seq<HeadChild>): Option<string> {
    match FirstBase(head)
    case None => None
    case Some(i) => head[i].href
  }

  /** The base element's existing `href` is kept when it is present, not
      empty and starts with the page's origin. */
  predicate KeepsBaseHref(href: Option<string>, origin: string) {
    href.Some? && href.value != "" && origin <= href.value
  }

  /** The `href` the base element has after the capture: the existing one
      when it is kept, otherwise the page's own address. */
  function BaseHref(href: Option<string>, origin: string, location: string): (r: string)
    ensures KeepsBaseHref(href, origin) ==> r == href.value && r != "" && origin <= r
    ensures !KeepsBaseHref(href, origin) ==> r == location
  {
    if KeepsBaseHref(href, origin) then href.value else location
  }

  /** Whatever the base element held, the resulting `href` is a non-empty
      address at the page's origin, as long as the page's own address is. */
  lemma BaseHrefAtOrigin(href: Option<string>, origin: string, location: string)
    requires location != "" && origin <= location
    ensures var r := BaseHref(href, origin, location);
      r != "" && origin <= r && KeepsBaseHref(Some(r), origin)
  {
  }

  /** Applying the rule to its own result changes nothing, even for a page
      whose address does not start with its origin (an opaque "null" origin). */
  lemma BaseHrefIdempotent(href: Option<string>, origin: string, location: string)
    ensures BaseHref(Some(BaseHref(href, origin, location)), origin, location)
      == BaseHref(href, origin, location)
  {
  }

  /** A title element with the document's title is appended when the head has
      none. */
  function EnsureTitle(head: seq<HeadChild>, documentTitle: string): (r: seq<HeadChild>)
    ensures HasTitle(r)
    ensures head <= r
    ensures HasTitle(head) ==> r == head
    ensures !HasTitle(head) ==> r == head + [Title(documentTitle)]
  {
    if HasTitle(head) then head
    else
      var r := head + [Title(documentTitle)];
      assert r[|head|].Title?;
      r
  }

  /** A base element without `href` is appended when the head has none. */
  function EnsureBase(head: seq<HeadChild>): (r: seq<HeadChild>)
    ensures FirstBase(r).Some?
    ensures head <= r
    ensures FirstBase(head).Some? ==> r == head
    ensures FirstBase(head).None? ==> r == head + [Base(None)] && FirstBase(r) == Some(|head|)
  {
    if FirstBase(head).Some? then head
    else
      var r := head + [Base(None)];
      assert r[|head|].Base?;
      r
  }

  /** The first base element gets the page's address as its `href` unless
      its own is kept; nothing else in the head changes. */
  function FixBaseHref(head: seq<HeadChild>, origin: string, location: string): (r: seq<HeadChild>)
    requires FirstBase(head).Some?
    ensures FirstBase(r) == FirstBase(head)
    ensures FirstBaseHref(r) == Some(BaseHref(FirstBaseHref(head), origin, location))
    ensures |r| == |head|
    ensures forall j | 0 <= j < |head| && j != FirstBase(head).value :: r[j] == head[j]
    ensures HasTitle(head) ==> HasTitle(r)
  {
    var i := FirstBase(head).value;
    if KeepsBaseHref(head[i].href, origin) then
      head
    else
      var r := head[i := Base(Some(location))];
      assert HasTitle(head) ==> HasTitle(r) by {
        if HasTitle(head) {
          var t :| 0 <= t < |head| && head[t].Title?;
          assert r[t].Title?;
        }
      }
      assert FirstBase(r) == Some(i) by {
        assert forall j | 0 <= j < i :: r[j] == head[j];
        assert r[i].Base?;
      }
      r
  }

  /** The head part of `getHTMLOfDocument`: make sure a title and a base
      element exist, then give the first base element a usable `href`. */
  function PrepareHead(head: seq<HeadChild>, documentTitle: string, origin: string, location: string): (r: seq<HeadChild>)
    ensures HasTitle(r)
    ensures FirstBase(r).Some?
    ensures FirstBaseHref(r) == Some(BaseHref(FirstBaseHref(head), origin, location))
    ensures |r| == |head| + (if HasTitle(head) then 0 else 1) + (if FirstBase(head).Some? then 0 else 1)
    ensures forall i | 0 <= i < |head| && Some(i) != FirstBase(head) :: r[i] == head[i]
  {
    var titled := EnsureTitle(head, documentTitle);
    TitleKeepsFirstBase(head, documentTitle);
    var based := EnsureBase(titled);
    BaseKeepsTitle(titled);
    FixBaseHref(based, origin, location)
  }

  /** Adding a title does not change which element is the first base. */
  lemma TitleKeepsFirstBase(head: seq<HeadChild>, documentTitle: string)
    ensures FirstBase(EnsureTitle(head, documentTitle)) == FirstBase(head)
  {
    if !HasTitle(head) {
      var titled := EnsureTitle(head, documentTitle);
      assert titled == head + [Title(documentTitle)];
      assert !titled[|head|].Base?;
    }
  }

  /** Adding a base element keeps the title. */
  lemma BaseKeepsTitle(head: seq<HeadChild>)
    requires HasTitle(head)
    ensures HasTitle(EnsureBase(head))
  {
    var t :| 0 <= t < |head| && head[t].Title?;
    assert EnsureBase(head)[t].Title?;
  }

  /** Preparing the head of an already prepared page changes nothing, so the
      page can be captured again. */
  lemma PrepareHeadIdempotent(head: seq<HeadChild>, documentTitle: string, origin: string, location: string)
    ensures var once := PrepareHead(head, documentTitle, origin, location);
      PrepareHead(once, documentTitle, origin, location) == once
  {
    var once := PrepareHead(head, documentTitle, origin, location);
    var i := FirstBase(once).value;
    assert once[i].href == Some(BaseHref(FirstBaseHref(head), origin, location));
    BaseHrefIdempotent(FirstBaseHref(head), origin, location);
    assert KeepsBaseHref(once[i].href, origin) || once[i].href == Some(location);
  }

  // ----- The selection -----

  /** The selection interface the page offers: the legacy
      `document.selection` with the HTML of its text range, the standard
      `window.getSelection()` with the serialised contents of each of its
      ranges (the `innerHTML` of a div holding the range's cloned contents),
      or neither. */
  datatype SelectionApi =
    | LegacySelection(htmlText: string)
    | RangeSelection(ranges: seq<string>)
    | NoSelectionApi

  /** `s` written `n` times. */
  function Repeat(s: string, n: nat): (r: string)
    ensures |r| == n * |s|
  {
    if n == 0 then "" else Repeat(s, n - 1) + s
  }

  /** The ranges' contents one after another. */
  function Concat(parts: seq<string>): string
    decreases |parts|
  {
    if |parts| == 0 then "" else Concat(parts[..|parts| - 1]) + parts[|parts| - 1]
  }

  /** `getHTMLOfSelection` as written: the loop runs once per range but reads
      range 0 every time, so the first range is repeated `rangeCount` times. */
  function SelectionHtmlAsWritten(api: SelectionApi): (html: string)
    ensures api.NoSelectionApi? ==> html == ""
    ensures api.LegacySelection? ==> html == api.htmlText
    ensures api.RangeSelection? && |api.ranges| == 0 ==> html == ""
    ensures api.RangeSelection? && |api.ranges| > 0 ==>
      |html| == |api.ranges| * |api.ranges[0]| && api.ranges[0] <= html
    ensures api.RangeSelection? ==>
      html == Concat(seq(|api.ranges|, i requires 0 <= i < |api.ranges| => api.ranges[0]))
  {
    match api
    case LegacySelection(htmlText) => htmlText
    case RangeSelection(ranges) =>
      if |ranges| > 0 then
        RepeatStartsWith(ranges[0], |ranges|);
        var firsts := seq(|ranges|, i requires 0 <= i < |ranges| => ranges[0]);
        RepeatIsConcat(firsts, |firsts|);
        assert firsts[..|firsts|] == firsts;
        Repeat(ranges[0], |ranges|)
      else ""
    case NoSelectionApi => ""
  }

  lemma {:induction false} RepeatStartsWith(s: string, n: nat)
    requires n > 0
    ensures s <= Repeat(s, n)
  {
    if n > 1 {
      RepeatStartsWith(s, n - 1);
    }
  }

  /** The loop of `getHTMLOfSelection` as written. */
  method GetHtmlOfSelection(api: SelectionApi) returns (html: string)
    ensures html == SelectionHtmlAsWritten(api)
  {
    match api {
      case LegacySelection(htmlText) =>
        html := htmlText;
      case RangeSelection(ranges) =>
        html := "";
        if |ranges| > 0 {
          var i := 0;
          while i < |ranges|
            invariant 0 <= i <= |ranges|
            invariant html == Repeat(ranges[0], i)
          {
            html := html + ranges[0];
            i := i + 1;
          }
        }
      case NoSelectionApi =>
        html := "";
    }
  }

  /** The evidently intended `getHTMLOfSelection`: range `i` is read in
      iteration `i`. */
  function SelectionHtml(api: SelectionApi): (html: string)
    ensures api.NoSelectionApi? ==> html == ""
    ensures api.LegacySelection? ==> html == api.htmlText
    ensures api.RangeSelection? ==>
      && |html| == TotalLength(api.ranges)
      && forall i | 0 <= i < |api.ranges| :: Concat(api.ranges[..i]) + api.ranges[i] <= html
  {
    match api
    case LegacySelection(htmlText) => htmlText
    case RangeSelection(ranges) =>
      ConcatLength(ranges);
      ConcatHasAllRanges(ranges);
      Concat(ranges)
    case NoSelectionApi => ""
  }

  /** The corrected loop. */
  method GetHtmlOfAllRanges(api: SelectionApi) returns (html: string)
    ensures html == SelectionHtml(api)
  {
    match api {
      case LegacySelection(htmlText) =>
        html := htmlText;
      case RangeSelection(ranges) =>
        html := "";
        var i := 0;
        while i < |ranges|
          invariant 0 <= i <= |ranges|
          invariant html == Concat(ranges[..i])
        {
          assert ranges[..i + 1][..i] == ranges[..i];
          html := html + ranges[i];
          i := i + 1;
        }
        assert ranges[..|ranges|] == ranges;
      case NoSelectionApi =>
        html := "";
    }
  }

  /** In the corrected version every range appears, in order: range `i`
      follows the ranges before it. */
  lemma {:induction false} ConcatHasEachRange(ranges: seq<string>, i: nat)
    requires i < |ranges|
    ensures Concat(ranges[..i]) + ranges[i] <= Concat(ranges)
    decreases |ranges|
  {
    var last := |ranges| - 1;
    assert ranges[..last][..i] == ranges[..i] by {
      if i < last {
      }
    }
    if i < last {
      ConcatHasEachRange(ranges[..last], i);
    } else {
      assert ranges[..i] == ranges[..last];
    }
  }

  lemma ConcatHasAllRanges(ranges: seq<string>)
    ensures forall i | 0 <= i < |ranges| :: Concat(ranges[..i]) + ranges[i] <= Concat(ranges)
  {
    forall i | 0 <= i < |ranges| ensures Concat(ranges[..i]) + ranges[i] <= Concat(ranges) {
      ConcatHasEachRange(ranges, i);
    }
  }

  /** The corrected output has the total length of the ranges. */
  lemma {:induction false} ConcatLength(ranges: seq<string>)
    ensures |Concat(ranges)| == TotalLength(ranges)
    decreases |ranges|
  {
    if |ranges| > 0 {
      ConcatLength(ranges[..|ranges| - 1]);
    }
  }

  function TotalLength(parts: seq<string>): nat
    decreases |parts|
  {
    if |parts| == 0 then 0 else TotalLength(parts[..|parts| - 1]) + |parts[|parts| - 1]|
  }

  /** The two versions agree whenever all ranges hold the same HTML, in
      particular for the common single-range selection. */
  lemma {:induction false} AsWrittenAgreesOnUniformRanges(ranges: seq<string>)
    requires forall i | 0 <= i < |ranges| :: ranges[i] == ranges[0]
    ensures SelectionHtmlAsWritten(RangeSelection(ranges)) == SelectionHtml(RangeSelection(ranges))
  {
    if |ranges| > 0 {
      RepeatIsConcat(ranges, |ranges|);
      assert ranges[..|ranges|] == ranges;
    }
  }

  lemma {:induction false} RepeatIsConcat(ranges: seq<string>, n: nat)
    requires 0 < |ranges| && n <= |ranges|
    requires forall i | 0 <= i < |ranges| :: ranges[i] == ranges[0]
    ensures Repeat(ranges[0], n) == Concat(ranges[..n])
  {
    if n > 0 {
      RepeatIsConcat(ranges, n - 1);
      assert ranges[..n][..n - 1] == ranges[..n - 1];
    }
  }

  /** A selection of two ranges with different contents (for instance two
      table cells selected with Ctrl): the second range is lost and the first
      appears twice. */
  lemma SecondRangeLost()
    ensures SelectionHtmlAsWritten(RangeSelection(["<b>a</b>", "<i>b</i>"])) == "<b>a</b><b>a</b>"
    ensures SelectionHtml(RangeSelection(["<b>a</b>", "<i>b</i>"])) == "<b>a</b><i>b</i>"
  {
    var ranges := ["<b>a</b>", "<i>b</i>"];
    assert Repeat(ranges[0], 2) == "<b>a</b><b>a</b>";
    assert ranges[..1][..0] == [];
    assert Concat(ranges) == "<b>a</b><i>b</i>" by {
      assert ranges[..1] == ["<b>a</b>"];
      assert Concat(ranges[..1]) == "<b>a</b>";
    }
  }
}
